=== FILE: README.md ===
# bookmark-open: the bookmark store and the configuration front end

A Dafny model of the two self-contained cores of bookmark-open.

**The flat-file bookmark store** (`kj.bo.database.FileDatabase`, `kj.bo.Entity`,
`kj.bo.options.Delete`):

- The store is a text file. Its first line is the header `NUM_ENTRIES HIGHEST_ID`.
- Every further line is an entry `ID URL tag1,tag2,...`.
- The model treats the file as a `seq<string>` of lines. Reading, adding, deleting and looking up
  entries are pure functions over that sequence.
- Java's `String.split` with a one-character separator that is not a regex metacharacter is
  modelled exactly (the store uses ' ' and ','):
  - consecutive separators give empty fields;
  - trailing empty fields are dropped;
  - `"".split` gives `[""]`.
- `Long.parseLong` and `Long.toString` are modelled over the 64-bit range.
- An exception the store lets escape becomes the `None` or `Failure` of a result.

**The C configuration front end** (`bo_config/parser.c`, `bo_config/config-parser.c`,
`bo_config/semantics-processor.c`, `context.c`). These are two recursive-descent recognisers for

    PROGRAM        -> STATEMENT_LIST END_OF_FILE
    STATEMENT_LIST -> STATEMENT {STATEMENT}
    STATEMENT      -> KEYWORD ASSIGN_OP LITERAL END_OF_LINE

over a token sequence.

- `parser.c` loads the keyword/literal pairs into a two-attribute context (DB, URL_OPEN_CMD). It does
  this through a two-slot semantic stack.
- `config-parser.c` only checks the syntax.
- Both report every token they cannot match and carry on. The model collects the reports in order.
- Behaviour the C standard leaves undefined ends a run of the model with a `Fault`:
  - reading a stack slot that was never written;
  - reading past the end of the stack;
  - calling the NULL setter.
- The parser runs on the corrected `pop` (see "## Findings"). With `pop` as written, the `empty`
  after every complete statement reads past the end of the stack. `Parser.StatementEmptiesPastEnd`
  and `SemanticStack.EmptyFullStack` state that fault; the parse itself never reaches it.

Modules, one per source component:

| module | models |
|---|---|
| `Results` | `Option` for nullable references, `Result` for exceptions and error returns |
| `JavaLong`, `JavaString` | `Long.parseLong`/`Long.toString`, `String.split`/`String.join` |
| `Records`, `Headers` | entry lines and the header line of FileDatabase.java |
| `Entities` | Entity.java |
| `FileDatabase` | `getAll`, `get`, `getSequential`, and `add`/`delete` as the tests require them |
| `DeleteOption` | `Delete.execute` |
| `StoreScenarios` | the scenarios of FileDatabaseTest.java |
| `CStrings` | `strlen` and `strncpy` |
| `Tokens`, `ConfigTokens` | the token types of tokens.h and config-scanner.h |
| `Contexts` | context.c |
| `SemanticStack` | semantics-processor.c and context-function-mapper.h |
| `Parser` | parser.c |
| `ConfigParser` | config-parser.c |

The source has no `add(Entity[])`, although FileDatabaseTest.java calls one. The only `add` takes
`String[]`. It writes the raw urls, one per line, from the start of the file with `CREATE, WRITE`
and no `TRUNCATE_EXISTING`, so a longer old file keeps its tail. Both `delete`s are empty stubs.
The model follows the behaviour that FileDatabaseTest.java asserts instead:

- ids are numbered from HIGHEST_ID + 1 in input order;
- both header counters rise by the batch size;
- entries are written as `id url t1,t2,...`.

For deletion there is no code to follow. The model drops the matching entries and lowers NUM_ENTRIES
by their number. It keeps HIGHEST_ID, so that an id is never handed out twice. The test
`deleteAllEntires` expects the file to be empty after every entry is deleted. That file would have
no header and could no longer be opened (FileDatabase.java:76 reads the header from the first line).
So the model writes `0 3` there; see `StoreScenarios.DeleteAllEntries`.

Where the header has more than two fields, the code reads the first two and ignores the rest. The
model follows the code.

## Model

| member | source | states |
|---|---|---|
| JavaString.SplitShape | src/main/java/kj/bo/database/FileDatabase.java:43 | `split` of "" is [""]; otherwise the last field is never empty; a string without the separator is its own single field |
| JavaString.SplitOfJoin | src/main/java/kj/bo/database/FileDatabase.java:61 | splitting a join gives the parts back when no part holds the separator and the last part is non-empty |
| JavaString.SplitAvoidsSep | src/main/java/kj/bo/database/FileDatabase.java:65 | no field `split` returns contains the separator |
| JavaString.JoinOfFields | src/main/java/kj/bo/database/FileDatabase.java:61 | before trailing empties are dropped, the fields joined with the separator rebuild the string |
| JavaLong.ParseLongSpec | src/main/java/kj/bo/database/FileDatabase.java:49 | `parseLong` accepts only digits, or a '+' or '-' followed by digits; plain and '+'-signed digits denote their value when it is at most Long.MAX_VALUE, '-'-signed digits denote its negation when that is at least Long.MIN_VALUE, and everything else is rejected |
| JavaLong.ParseOfToString | src/main/java/kj/bo/database/FileDatabase.java:49 | parsing a printed long gives the same long back |
| JavaLong.ToString | src/test/java/kj/bo/FileDatabaseTest.java:62-67 | a printed long is non-empty and starts with '-' exactly when it is negative |
| Headers.ParseHeader | src/main/java/kj/bo/database/FileDatabase.java:40-53 | succeeds exactly when the first two space-separated fields are longs, taking NUM_ENTRIES from field 0 and HIGHEST_ID from field 1; otherwise the error is exactly the first of: no field 0, field 0 not a long, no field 1, field 1 not a long |
| Headers.BlankHeaderHasNoFields | src/main/java/kj/bo/database/FileDatabase.java:43-49 | a header of a single space splits into no fields, so reading NUM_ENTRIES already fails on field 0 |
| Headers.Open | src/main/java/kj/bo/database/FileDatabase.java:73-80 | an empty file fails with `EmptyFile` and only then; a non-empty file opens to exactly the header parse of line 0, success or failure |
| Headers.ParseOfHeaderLine | src/main/java/kj/bo/database/FileDatabase.java:40-53 | a written header line reads back as the same header |
| Headers.OpenAfterWrite | src/main/java/kj/bo/database/FileDatabase.java:73-80 | a file starting with a written header opens to that header, whatever follows |
| Headers.ExtraHeaderFieldsIgnored | src/main/java/kj/bo/database/FileDatabase.java:43-52 | fields after the second do not change the header read |
| Records.GetFieldShape | src/main/java/kj/bo/database/FileDatabase.java:58-71 | a field is missing (the escaping index exception) exactly when the line has too few fields; ID gives a long or, exactly when its text is not a long, the raw line; URL and TAGS give their own variants |
| Records.GetFieldAvoidsSeparators | src/main/java/kj/bo/database/FileDatabase.java:61-65 | a url read holds no space, and no tag read holds a comma |
| Records.DecodeOfEncode | src/main/java/kj/bo/database/FileDatabase.java:58-66 | reading the id, url and tags of an encoded entry gives back what was encoded, for every entry the format can carry (no space or line break in the url or a tag, no comma in a tag, a non-empty last tag) |
| Records.RecordIdOfEncode | src/main/java/kj/bo/database/FileDatabase.java:59-63 | the id of an encoded entry is always read back, whatever its url and tags |
| Records.EmptyTagsUnreadable | src/main/java/kj/bo/database/FileDatabase.java:61-65 | an entry written with no tags has an unreadable TAGS field: `split` drops the trailing empty field |
| Entities.NewEntity | src/main/java/kj/bo/Entity.java:8-9 | every field is at its Java default |
| Entities.EntityWithId | src/main/java/kj/bo/Entity.java:11-13 | the id is stored; url and tags stay null |
| Entities.EntityOf | src/main/java/kj/bo/Entity.java:15-18 | url and tags are stored; the id stays 0 |
| Entities.SetId | src/main/java/kj/bo/Entity.java:20-26 | `getId` returns the id set; url and tags are unchanged |
| Entities.SetUrl | src/main/java/kj/bo/Entity.java:28-34 | `getUrl` returns the url set; id and tags are unchanged |
| Entities.SetTags | src/main/java/kj/bo/Entity.java:36-42 | `getTags` returns the tags set; id and url are unchanged |
| FileDatabase.GetAll | src/main/java/kj/bo/database/FileDatabase.java:105-109 | fails exactly on an empty file; otherwise has one line fewer than the file |
| FileDatabase.GetAllEntries | src/main/java/kj/bo/database/FileDatabase.java:105-109 | entry i of `getAll` is line i + 1 of the file |
| FileDatabase.Requested | src/main/java/kj/bo/database/FileDatabase.java:121-123 | an id is kept exactly when it is requested and not above the highest id |
| FileDatabase.LinesMembers | src/main/java/kj/bo/database/FileDatabase.java:125-127 | the filter keeps a line exactly when it is in the input and matches |
| FileDatabase.SelectAsWritten | src/main/java/kj/bo/database/FileDatabase.java:125-127 | the source's filter fails exactly when some line has an unreadable id; otherwise it keeps the matching lines |
| FileDatabase.Get | src/main/java/kj/bo/database/FileDatabase.java:120-128 | fails exactly on an empty file; otherwise returns entry lines in file order, a subsequence of the entries |
| FileDatabase.GetMembers | src/main/java/kj/bo/database/FileDatabase.java:112-128 | a line is returned exactly when it is an entry whose readable id is requested and not above the highest id |
| FileDatabase.GetMatchesSourceOnReadableFiles | src/main/java/kj/bo/database/FileDatabase.java:125-127 | the source's lookup succeeds exactly when every entry id is readable, and then agrees with `Get` |
| FileDatabase.GetDependsOnIdSet | src/main/java/kj/bo/database/FileDatabase.java:121-126 | neither the order nor repeats of the requested ids change the result |
| FileDatabase.GetSequential | src/main/java/kj/bo/database/FileDatabase.java:116-128 | the two-pass loop of `getSequential` returns what `get` returns |
| FileDatabase.Add | src/test/java/kj/bo/FileDatabaseTest.java:53-98 | an empty batch changes nothing; it fails on an unopenable file, on a null url or tag array, and exactly when a counter would pass the long range; on success it adds one line per entity and keeps the old entries in place |
| FileDatabase.AddUpdatesHeader | src/test/java/kj/bo/FileDatabaseTest.java:62-67 | after a non-empty add both header counters have grown by the batch size |
| FileDatabase.AddAssignsSequentialIds | src/test/java/kj/bo/FileDatabaseTest.java:62-67 | the i-th added entity is written on line |file| + i with id HIGHEST_ID + 1 + i |
| FileDatabase.AddKeepsFields | src/test/java/kj/bo/FileDatabaseTest.java:62-67 | the line of each added entity reads back with its url and tags |
| FileDatabase.GetAfterAdd | src/main/java/kj/bo/database/FileDatabase.java:120-128 | after an add to a store with no entry id above its highest id, looking up the id given to an entity finds exactly that entity's line |
| FileDatabase.DeleteWhere | src/main/java/kj/bo/database/FileDatabase.java:94-102 | the entry lines written back are the unmatched lines in their order, repeats included, so the file shrinks by exactly the number removed; NUM_ENTRIES drops by that number (failing when it would fall below the long range); HIGHEST_ID is kept; fails on an unopenable file |
| FileDatabase.LinesPartition | src/main/java/kj/bo/database/FileDatabase.java:94-102 | every entry line is either removed or kept: the two counts add up to the number of lines |
| FileDatabase.DeleteIds | src/main/java/kj/bo/database/FileDatabase.java:94-97 | an entry survives exactly when its id is unreadable or not among the ids |
| FileDatabase.DeleteUrls | src/main/java/kj/bo/database/FileDatabase.java:99-102 | an entry survives exactly when its url is unreadable or not among the urls |
| FileDatabase.DeleteAbsentIds | src/main/java/kj/bo/database/FileDatabase.java:94-97 | deleting ids no entry carries rewrites the same entries under the same header |
| DeleteOption.ToIds | src/main/java/kj/bo/options/Delete.java:15 | the id array has one slot per argument |
| DeleteOption.ToIdsAt | src/main/java/kj/bo/options/Delete.java:16-21 | slot k holds argument k's value when it is a long, 0 otherwise |
| DeleteOption.ToIdsMembers | src/main/java/kj/bo/options/Delete.java:14-22 | an id is in the array exactly when some argument converts to it |
| DeleteOption.NotIdReportsMembers | src/main/java/kj/bo/options/Delete.java:16-21 | an argument is reported exactly when it is not a long; there are exactly as many reports as positions holding such an argument |
| DeleteOption.NotIdReportsCount | src/main/java/kj/bo/options/Delete.java:16-21 | one report per position whose argument is not a long, so never more reports than arguments |
| DeleteOption.NotIdReportsMultiplicity | src/main/java/kj/bo/options/Delete.java:16-21 | an argument that is not a long is reported as many times as it is given, and a long never |
| DeleteOption.Execute | src/main/java/kj/bo/options/Delete.java:14-28 | the store's delete is called once, with the whole id array; after a successful delete an entry stays exactly when its id is unreadable or no argument converts to it; exactly the arguments that are not longs are reported, once per position they hold |
| DeleteOption.BadArgumentDeletesIdZero | src/main/java/kj/bo/options/Delete.java:19-24 | a non-numeric argument leaves 0 in its slot, so an entry with id 0 is deleted |
| StoreScenarios.AddToEmptyStore | src/test/java/kj/bo/FileDatabaseTest.java:53-72 | three entities added to "0 0" give "3 3" and the three expected lines |
| StoreScenarios.AddToUsedStore | src/test/java/kj/bo/FileDatabaseTest.java:74-98 | a further add gives "4 4" and appends "4 url4 t1", earlier lines unchanged |
| StoreScenarios.DeleteAllEntries | src/test/java/kj/bo/FileDatabaseTest.java:100-119 | deleting ids 1, 2, 3 removes every entry and leaves the header "0 3" |
| StoreScenarios.UnreadableIdBreaksSourceLookup | src/main/java/kj/bo/database/FileDatabase.java:126 | one entry with a non-numeric id makes the source's lookup fail, while `Get` returns no lines |
| CStrings.CLengthSpec | C/context.c:60-61 | `strlen` counts the characters before the first NUL, none of which is NUL |
| CStrings.StrNCopyAt | C/context.c:60-61 | `strncpy` fills exactly n characters: the source's characters while they last, NUL after |
| CStrings.StrNCopyWhole | C/bo_config/semantics-processor.c:80-81 | copying `strlen(value)` characters gives the string's characters with no terminator |
| Contexts.ContextMalloc | C/context.c:16-20 | a new context has a values array and both attributes NULL |
| Contexts.SetAttribute | C/context.c:53-66 | returns 1 exactly for a non-NULL context with a values array and a positive length, and otherwise returns 0 and changes nothing; on success the attribute reads back as the n-character copy and the other attribute is unchanged |
| Contexts.LastWriteWins | C/context.c:25-31 | after two sets of one attribute its getter returns the second value |
| Contexts.SettersIndependent | C/context.c:34-40 | `set_db` changes only DB and `set_url_open_cmd` only URL_OPEN_CMD |
| Contexts.SetWholeString | C/context.c:60-63 | setting a non-empty C string with its own length stores exactly its characters |
| Contexts.ContextFree | C/context.c:43-51 | afterwards both attributes are NULL and the values array is kept |
| Contexts.FreeThenSet | C/context.c:43-66 | a freed context equals a new one and can be set again |
| SemanticStack.StackMalloc | C/bo_config/semantics-processor.c:15-19 | a new stack is empty |
| SemanticStack.Push | C/bo_config/semantics-processor.c:34-46 | returns 1 exactly for a non-NULL stack and token with room left; otherwise returns 0 and changes nothing, reporting "Stack full" exactly when full; on success the token sits at the old top, top rises by one, and the other slot is unchanged |
| SemanticStack.Pop | C/bo_config/semantics-processor.c:49-56 | corrected pop: NULL on an empty stack; otherwise returns the top token, top falls by one, slots unchanged |
| SemanticStack.PopAsWritten | C/bo_config/semantics-processor.c:49-56 | pop as written: it reads one slot above the top, which is out of bounds exactly on a full stack |
| SemanticStack.PopAfterPush | C/bo_config/semantics-processor.c:42-55 | with the corrected pop, pop after push returns the pushed token and restores top |
| SemanticStack.PopAsWrittenMissesPush | C/bo_config/semantics-processor.c:52 | with pop as written, pop after push on a new stack reads a never-written slot instead of the pushed token |
| SemanticStack.Empty | C/bo_config/semantics-processor.c:58-61 | lowers top by two (to no less than 0) and leaves the slots as they were |
| SemanticStack.EmptyFullStack | C/bo_config/semantics-processor.c:58-61 | emptying a full stack reads out of bounds with pop as written and leaves the stack empty with the corrected pop |
| SemanticStack.ValidAssignment | C/bo_config/semantics-processor.c:65-77 | true exactly for (DB, PATH_LITERAL) and (URL_OPEN_CMD, STRING_LITERAL); undefined exactly when a slot it reads was never written |
| SemanticStack.SetterFor | C/bo_config/context-function-mapper.h:8-14 | a setter exists exactly for DB and URL_OPEN_CMD, and DB's is `set_db` |
| SemanticStack.PerformAssignment | C/bo_config/semantics-processor.c:79-83 | defined exactly when both slots hold tokens and slot 0 is a keyword; then the keyword's attribute holds slot 1's C string (unchanged for an empty one), the other attribute is unchanged, and the stack is emptied |
| Parser.Save | C/bo_config/parser.c:62 | pushes onto the semantic stack; on a full stack only "Stack full" is reported |
| Parser.Keyword | C/bo_config/parser.c:116-122 | consumes a token exactly when it is DB or URL_OPEN_CMD, saving it; any other token is reported and left in place |
| Parser.AssignOp | C/bo_config/parser.c:124-129 | consumes a token exactly when it is EQUALS or SPACE; any other is reported and left in place |
| Parser.Literal | C/bo_config/parser.c:131-138 | consumes a token exactly when it is an INT, STRING or PATH literal, saving it; any other is reported and left in place |
| Parser.Statement | C/bo_config/parser.c:99-114 | a statement that completes always consumes input, only adds reports, and leaves the stack empty; what it reports and assigns for valid and invalid pairs is stated by StatementOfValid and StatementOfInvalid |
| Parser.StatementLoop | C/bo_config/parser.c:92-97 | the loop stops only at a token that is neither DB nor URL_OPEN_CMD |
| Parser.StatementList | C/bo_config/parser.c:92-97 | the list consumes at least one token and only adds reports |
| Parser.Program | C/bo_config/parser.c:82-90 | faults exactly when the statement list does; otherwise ends one token past the list, with the list's context and stack, adding one report exactly when the token after the list is not END_OF_FILE |
| Parser.LoadContext | C/bo_config/parser.c:64-79 | returns 0 and changes nothing for a NULL context or file; otherwise returns 1 whatever was reported |
| Parser.StatementReadsPair | C/bo_config/parser.c:99-102 | a well-formed statement's keyword and literal land in slots 0 and 1 without a report |
| Parser.StatementEmptiesPastEnd | C/bo_config/semantics-processor.c:49-61 | with `pop` as written, the `empty` after any well-formed statement reads past the end of the stack |
| Parser.AssignmentStep | C/bo_config/semantics-processor.c:79-83 | performing the assignment of a keyword and a literal stores the literal's C string in the keyword's attribute |
| Parser.StatementOfValid | C/bo_config/parser.c:99-114 | a well-formed statement with a valid pair consumes four tokens, reports nothing and performs its assignment |
| Parser.StatementOfInvalid | C/bo_config/parser.c:107-113 | a well-formed statement whose pair is not a valid assignment consumes four tokens, adds exactly the "Invalid assignment" report, and still performs its assignment |
| Parser.LoopOfValid | C/bo_config/parser.c:92-97 | the loop over well-formed statements with valid pairs reports nothing and applies them in order |
| Parser.AppliedIsLatest | C/bo_config/parser.c:99-114 | applying statements in order leaves each attribute at the literal of its last statement |
| Parser.ListOfValid | C/bo_config/parser.c:92-97 | the statement list of a grammatical program with valid pairs reports nothing and leaves each attribute at its latest value |
| Parser.LoadGrammatical | C/bo_config/parser.c:64-114 | a grammatical program whose pairs are valid loads with status 1 and no report, each attribute holding its last statement's literal, so a later statement overwrites an earlier one |
| Parser.StatementClean | C/bo_config/parser.c:99-138 | a statement that reports nothing was well formed with a valid pair and consumed four tokens |
| Parser.LoopClean | C/bo_config/parser.c:92-97 | a loop that reports nothing went over well-formed statements with valid pairs |
| Parser.CleanLoadIsGrammatical | C/bo_config/parser.c:64-114 | a load that reports nothing was given a grammatical program whose pairs are valid: the converse of `LoadGrammatical` |
| Parser.LoadNeverFull | C/bo_config/semantics-processor.c:37-40 | loading never reports "Stack full" |
| Parser.StatementWithoutKeyword | C/bo_config/parser.c:99-122 | a statement without its keyword, on a new stack, reads a never-written slot |
| Parser.LoadWithoutFirstKeyword | C/bo_config/parser.c:64-79 | a program whose first token is not a keyword makes loading read a never-written slot |
| Parser.MissingLiteralReusesPrevious | C/bo_config/parser.c:99-114 | a later statement without its literal is reported, yet assigns the previous statement's literal to its keyword |
| ConfigParser.Match | C/bo_config/config-parser.c:28-34 | consumes one token exactly when the current token has the type, returns whether it did, and never reports |
| ConfigParser.AssignOp | C/bo_config/config-parser.c:82-87 | consumes a token exactly when it is EQUALS or SPACE; any other is reported and left in place |
| ConfigParser.Literal | C/bo_config/config-parser.c:89-94 | consumes a token exactly when it is an INT, STRING or PATH literal; any other is reported and left in place |
| ConfigParser.Statement | C/bo_config/config-parser.c:70-80 | each of the four parts is either consumed or reported, never both; a missing KEYWORD is reported first as the current token; a well-formed statement consumes its four tokens without a report |
| ConfigParser.StatementLoop | C/bo_config/config-parser.c:63-68 | the loop stops only at a token that is not a KEYWORD |
| ConfigParser.Program | C/bo_config/config-parser.c:55-61 | after the statement list, an END_OF_FILE is consumed with no report; any other token is reported and not consumed |
| ConfigParser.StatementClean | C/bo_config/config-parser.c:70-94 | a statement that reports nothing was well formed and consumed four tokens |
| ConfigParser.LoopOfWellFormed | C/bo_config/config-parser.c:63-68 | the loop over well-formed statements consumes all of them without a report |
| ConfigParser.LoopClean | C/bo_config/config-parser.c:63-68 | a loop that reports nothing went over well-formed statements |
| ConfigParser.RunGrammatical | C/bo_config/config-parser.c:4-16 | a program of the grammar is consumed through END_OF_FILE with no report |
| ConfigParser.CleanRunIsGrammatical | C/bo_config/config-parser.c:50-94 | a run that reports nothing was given a program of the grammar: the converse of `RunGrammatical` |

## Left out

- File and stream I/O are not modelled: `FileReader`, `Files.readAllLines`, `Files.write`, stdin, and the text written to standard error. The file is the sequence of its lines, and the error text is a datatype value.
- The static singleton `get(fileName)` is left out because it only caches the store object.
- The stub bodies of `add(String[])` and the two `delete`s are replaced by the behaviour the tests require, as described above.
- The `parallelStream` of `get` is computed sequentially. Its agreement with `getSequential` is what `GetSequential` proves.
- `Long.parseLong` accepts only the ASCII digits '0' to '9'; the other Unicode decimal digits Java also accepts are left out.
- FileDatabase.Add: the model checks that the counters stay in the long range and fails if they would not. The tests never reach that case and nothing in the source handles it.
- DeleteOption.Execute: the IOException the store may throw is caught and printed by `execute`. The model hands the store's failure back in `outcome` instead of printing it.
- The com/kj/bo/* drafts, Troshure.java, CLIOptions.java and CLIOption.java are left out. They print their arguments or are glue around the Apache commons-cli library.
- C/main.c, C/config.c and C/util.h are left out: argument handling, usage text, `getenv` and file opening.
- C/data_structures/strings_array_list.c is left out. Its append reads an uninitialised pointer whenever the tail block has room, so it has no coherent behaviour to state.
- C/config-grammer.h, the token allocation superseded by tokens.h, is left out.
- The scanner is not part of this model. Tokens are an input sequence, and once it is exhausted the scanner is taken to answer END_OF_FILE.
- Memory ownership is not modelled:
  - token duplication and `token_free`;
  - `stack_free`;
  - the stack `load_context` allocates before its NULL check and then leaks;
  - failing `malloc`/`calloc`.
- The `main` functions of parser.c and config-parser.c only print or start the parse.
- SemanticStack.PerformAssignment: empties the stack with the corrected `pop` (second "## Findings" row). With `pop` as written, `empty` reads `data[2]` past the end of the stack after every statement that saved both its keyword and its literal. No successful assignment is promised for that code; `Parser.StatementEmptiesPastEnd` states the fault.
- Parser.LoadContext: parses with the corrected `pop`, so its result is not the fault that the as-written `empty` raises on the first complete statement.
- Records.DecodeOfEncode: a url or tag containing '\n' or '\r' is written on one line, but `Files.readAllLines` would split it there. No read-back is promised for such entries, and `Representable` excludes them.
- C `int` width is not modelled. `strlen`'s result is passed as a non-negative length, which it is for any string that fits in memory.
- `set_attribute` stores an n-character buffer without a terminator. Reading that buffer back as a C string (as parser.c's `main` does with `printf`) reads past its end. The model stores the n characters and does not model the over-read.

## Findings

| source | as written | input that shows it | evidently intended | confidence | as-written member | corrected member |
|---|---|---|---|---|---|---|
| src/main/java/kj/bo/database/FileDatabase.java:126 | `get` casts `getField(ID, line)` to `long`, but `getField` hands back the raw line when the id is not a number, so the cast throws ClassCastException and the whole lookup fails | a store whose entry line is "bookmark", looked up for id 1 | skip the entry whose id cannot be read, as `getField`'s fallback suggests | not executed | FileDatabase.SelectAsWritten (shown by StoreScenarios.UnreadableIdBreaksSourceLookup) | FileDatabase.Get (GetMembers, GetMatchesSourceOnReadableFiles) |
| C/bo_config/semantics-processor.c:52 | `pop` reads `data[top]` before decrementing `top`, which is one slot above the top token and, on a full stack, past the end of `data` | push one token on a new stack and pop: the slot read was never written; or `empty` after a complete statement (top == 2) reads `data[2]` | read `data[top - 1]`, the token on top | not executed | SemanticStack.PopAsWritten, SemanticStack.EmptyAsWritten (shown by PopAsWrittenMissesPush, EmptyFullStack) | SemanticStack.Pop, SemanticStack.Empty (PopAfterPush) |

=== FILE: c_strings.dfy ===
/** C strings as the configuration front end handles them: the characters of
    a `char *` up to its first NUL, `strlen`, and `strncpy` into a buffer of a
    given size. */
module CStrings {
  import opened JavaString

  const Nul: char := '\0'

  /** `strlen(s)`: the number of characters before the first NUL. */
  function CLength(s: string): nat {
    IndexOf(s, Nul)
  }

  /** The characters a `char *` denotes: everything before the first NUL. */
  function CString(s: string): string {
    s[..CLength(s)]
  }

  /** `NUL` repeated `n` times: the padding `strncpy` writes. */
  function Nuls(n: nat): (r: seq<char>)
    ensures |r| == n
  {
    if n == 0 then [] else Nuls(n - 1) + [Nul]
  }

  /** The `n` characters `strncpy(dst, src, n)` writes into `dst`: the
      characters of `src` while there are any, then NULs up to `n`; no
      terminator is added when `src` is at least `n` long. */
  function StrNCopy(src: string, n: nat): seq<char> {
    var copied := if CLength(src) < n then CLength(src) else n;
    CString(src)[..copied] + Nuls(n - copied)
  }

  lemma {:induction false} NulsAt(n: nat, i: nat)
    requires i < n
    ensures Nuls(n)[i] == Nul
  {
    if i < n - 1 {
      NulsAt(n - 1, i);
    }
  }

  /** `strlen` stops at the first NUL: every character it counts is not NUL. */
  lemma {:induction false} CLengthSpec(s: string)
    ensures CLength(s) <= |s|
    ensures CLength(s) < |s| ==> s[CLength(s)] == Nul
    ensures Nul !in CString(s)
  {
    IndexOfFirst(s, Nul);
  }

  /** The buffer `strncpy` fills has exactly `n` characters: character `i`
      is the `i`-th character of the C string while it lasts, NUL after. */
  lemma {:induction false} StrNCopyAt(src: string, n: nat, i: nat)
    requires i < n
    ensures |StrNCopy(src, n)| == n
    ensures i < CLength(src) ==> StrNCopy(src, n)[i] == src[i]
    ensures i >= CLength(src) ==> StrNCopy(src, n)[i] == Nul
  {
    CLengthSpec(src);
    var copied := if CLength(src) < n then CLength(src) else n;
    if i >= copied {
      NulsAt(n - copied, i - copied);
    }
  }

  /** Copying exactly `strlen(src)` characters gives the C string's
      characters and no terminator. */
  lemma {:induction false} StrNCopyWhole(src: string)
    ensures StrNCopy(src, CLength(src)) == CString(src)
    ensures Nul !in StrNCopy(src, CLength(src))
  {
    CLengthSpec(src);
    assert Nuls(0) == [];
  }
}

=== FILE: config_parser.dfy ===
/** The stand-alone syntax checker of bo_config/config-parser.c: the same
    grammar as the context loader, over the token types of
    bo_config/config-scanner.h, with `peek` and `match` instead of a
    semantic stack,

      PROGRAM        -> STATEMENT_LIST END_OF_FILE
      STATEMENT_LIST -> STATEMENT {STATEMENT}
      STATEMENT      -> KEYWORD ASSIGN_OP LITERAL END_OF_LINE

    Every token that cannot be matched is reported and parsing carries on;
    the model collects the reported tokens in order. */
module ConfigParser {
  import opened ConfigTokens

  /** The parser's globals: how many tokens `next_token` has consumed, and
      the tokens reported so far. */
  datatype State = State(pos: nat, errors: seq<Token>)

  /** `parse_error()`: report the current token. */
  function ParseError(ts: seq<Token>, st: State): State {
    st.(errors := st.errors + [Current(ts, st.pos)])
  }

  /** `peek(type)`: the current token has type `k`. */
  predicate Peek(ts: seq<Token>, st: State, k: TokenType) {
    Current(ts, st.pos).kind == k
  }

  /** What `match` leaves behind: the state and its return value. */
  datatype Matched = Matched(state: State, matched: bool)

  /** `match(type)`: consumes the current token when it has type `k`. */
  function Match(ts: seq<Token>, st: State, k: TokenType): (r: Matched)
    ensures r.state.errors == st.errors
    ensures r.matched == Peek(ts, st, k)
    ensures r.state.pos == if r.matched then st.pos + 1 else st.pos
  {
    if Peek(ts, st, k) then Matched(st.(pos := st.pos + 1), true) else Matched(st, false)
  }

  /** `assign_op()`: consumes an EQUALS or a SPACE, or reports. */
  function AssignOp(ts: seq<Token>, st: State): (r: State)
    ensures r.pos == st.pos + 1 <==> IsAssignOp(Current(ts, st.pos).kind)
    ensures IsAssignOp(Current(ts, st.pos).kind) ==> r.errors == st.errors
    ensures !IsAssignOp(Current(ts, st.pos).kind) ==> r.pos == st.pos && r.errors == st.errors + [Current(ts, st.pos)]
  {
    if Peek(ts, st, Equals) || Peek(ts, st, Space) then st.(pos := st.pos + 1) else ParseError(ts, st)
  }

  /** `literal()`: consumes an INT, STRING or PATH literal, or reports. */
  function Literal(ts: seq<Token>, st: State): (r: State)
    ensures r.pos == st.pos + 1 <==> IsLiteral(Current(ts, st.pos).kind)
    ensures IsLiteral(Current(ts, st.pos).kind) ==> r.errors == st.errors
    ensures !IsLiteral(Current(ts, st.pos).kind) ==> r.pos == st.pos && r.errors == st.errors + [Current(ts, st.pos)]
  {
    if Peek(ts, st, IntLiteral) || Peek(ts, st, StringLiteral) || Peek(ts, st, PathLiteral) then
      st.(pos := st.pos + 1)
    else ParseError(ts, st)
  }

  /** `statement()`: KEYWORD, assignment operator, literal, END_OF_LINE,
      each consumed when present and reported when not. */
  function Statement(ts: seq<Token>, st: State): (r: State)
    ensures st.pos <= r.pos <= st.pos + 4 && st.errors <= r.errors
    ensures Peek(ts, st, Keyword) ==> r.pos > st.pos
    // each of the four parts is either consumed or reported, never both
    ensures (r.pos - st.pos) + (|r.errors| - |st.errors|) == 4
    ensures !Peek(ts, st, Keyword) ==> |r.errors| > |st.errors| && r.errors[|st.errors|] == Current(ts, st.pos)
    ensures StatementAt(ts, st.pos) ==> r.pos == st.pos + 4 && r.errors == st.errors
  {
    var kw := Match(ts, st, Keyword);
    var named := if kw.matched then kw.state else ParseError(ts, kw.state);
    var read := Literal(ts, AssignOp(ts, named));
    var eol := Match(ts, read, EndOfLine);
    if eol.matched then eol.state else ParseError(ts, eol.state)
  }

  /** The `while` loop of `statement_list()`: one more statement as long as
      the current token is a KEYWORD. */
  function StatementLoop(ts: seq<Token>, st: State): (r: State)
    ensures r.pos >= st.pos && st.errors <= r.errors && !Peek(ts, r, Keyword)
    decreases |ts| - st.pos, 1
  {
    if !Peek(ts, st, Keyword) then st else LoopTurn(ts, st)
  }

  /** One turn of that loop: a statement, then the loop again. */
  function LoopTurn(ts: seq<Token>, st: State): (r: State)
    requires Peek(ts, st, Keyword)
    ensures r.pos > st.pos && st.errors <= r.errors && !Peek(ts, r, Keyword)
    decreases |ts| - st.pos, 0
  {
    StatementLoop(ts, Statement(ts, st))
  }

  /** `statement_list()`: one statement, then the loop. */
  function StatementList(ts: seq<Token>, st: State): (r: State)
    ensures r.pos >= st.pos && st.errors <= r.errors
  {
    StatementLoop(ts, Statement(ts, st))
  }

  /** `program()`: the statement list, then END_OF_FILE matched or
      reported. */
  function Program(ts: seq<Token>, st: State): (r: State)
    ensures r.pos >= st.pos && st.errors <= r.errors
    ensures
      var listed := StatementList(ts, st);
      && (Peek(ts, listed, EndOfFile) ==> r == listed.(pos := listed.pos + 1))
      && (!Peek(ts, listed, EndOfFile) ==> r == listed.(errors := listed.errors + [Current(ts, listed.pos)]))
  {
    var listed := StatementList(ts, st);
    var end := Match(ts, listed, EndOfFile);
    if end.matched then end.state else ParseError(ts, end.state)
  }

  /** `main()`: the first token is read, then the program is parsed. */
  function Run(ts: seq<Token>): State {
    Program(ts, State(0, []))
  }

  /** Statements `j` to `n - 1` are all well formed. */
  predicate StatementsFrom(ts: seq<Token>, j: nat, n: nat)
    requires j <= n
    decreases n - j
  {
    j == n || (StatementAt(ts, 4 * j) && StatementsFrom(ts, j + 1, n))
  }

  lemma {:induction false} StatementsFromAll(ts: seq<Token>, n: nat, j: nat)
    requires Statements(ts, n) && j <= n
    ensures StatementsFrom(ts, j, n)
    decreases n - j
  {
    if j < n {
      StatementsAt(ts, n, j);
      StatementsFromAll(ts, n, j + 1);
    }
  }

  lemma {:induction false} StatementsFromLast(ts: seq<Token>, j: nat, n: nat)
    requires j < n && StatementsFrom(ts, j, n)
    ensures StatementsFrom(ts, j, n - 1) && StatementAt(ts, 4 * (n - 1))
    decreases n - j
  {
    if j < n - 1 {
      StatementsFromLast(ts, j + 1, n);
    }
  }

  lemma {:induction false} StatementsOfFrom(ts: seq<Token>, n: nat)
    requires 4 * n <= |ts| && StatementsFrom(ts, 0, n)
    ensures Statements(ts, n)
    decreases n
  {
    if n > 0 {
      StatementsFromLast(ts, 0, n);
      StatementsOfFrom(ts, n - 1);
    }
  }

  /** A well-formed statement is consumed whole without a report. */
  lemma {:induction false} StatementOfWellFormed(ts: seq<Token>, st: State)
    requires StatementAt(ts, st.pos)
    ensures Statement(ts, st) == st.(pos := st.pos + 4)
  {
  }

  /** A statement that reports nothing was well formed, and was consumed
      whole. */
  lemma {:induction false} StatementClean(ts: seq<Token>, st: State)
    requires Statement(ts, st).errors == st.errors
    ensures StatementAt(ts, st.pos) && Statement(ts, st).pos == st.pos + 4
  {
    var kw := Match(ts, st, Keyword);
    var named := if kw.matched then kw.state else ParseError(ts, kw.state);
    var op := AssignOp(ts, named);
    var read := Literal(ts, op);
    var eol := Match(ts, read, EndOfLine);
    assert |named.errors| <= |op.errors| <= |read.errors| <= |Statement(ts, st).errors|;
    assert kw.matched;
    assert Current(ts, st.pos + 3).kind == EndOfLine;
  }

  /** The loop of `statement_list`, entered in state `st`, finishes in
      state `final`. */
  predicate LoopEnds(ts: seq<Token>, st: State, final: State) {
    StatementLoop(ts, st) == final
  }

  /** A turn of the loop is one statement followed by the rest of the
      loop. */
  lemma {:induction false} TurnSplit(ts: seq<Token>, st: State)
    requires Peek(ts, st, Keyword)
    ensures forall final :: LoopEnds(ts, Statement(ts, st), final) <==> LoopEnds(ts, st, final)
  {
    assert StatementLoop(ts, st) == LoopTurn(ts, st) == StatementLoop(ts, Statement(ts, st));
  }

  /** From statement `j` of a grammatical program on, the loop consumes
      the remaining statements without a report. */
  lemma {:induction false} LoopOfWellFormed(ts: seq<Token>, n: nat, j: nat, st: State)
    requires 4 * n <= |ts| && j <= n && StatementsFrom(ts, j, n) && Current(ts, 4 * n).kind != Keyword
    requires st.pos == 4 * j
    ensures LoopEnds(ts, st, st.(pos := 4 * n))
    decreases n - j
  {
    if j < n {
      StatementOfWellFormed(ts, st);
      TurnSplit(ts, st);
      LoopOfWellFormed(ts, n, j + 1, st.(pos := st.pos + 4));
    }
  }

  /** From statement `j` on, a loop that reports nothing went over
      well-formed statements up to some statement `n`, and stopped there. */
  lemma {:induction false} LoopClean(ts: seq<Token>, j: nat, st: State, final: State) returns (n: nat)
    requires 4 * j <= |ts| && st.pos == 4 * j
    requires LoopEnds(ts, st, final) && final.errors == st.errors
    ensures j <= n && 4 * n <= |ts| && StatementsFrom(ts, j, n) && final.pos == 4 * n
    decreases |ts| - st.pos
  {
    if !Peek(ts, st, Keyword) {
      n := j;
    } else {
      var next := Statement(ts, st);
      TurnSplit(ts, st);
      assert |st.errors| <= |next.errors| <= |final.errors|;
      StatementClean(ts, st);
      n := LoopClean(ts, j + 1, next, final);
    }
  }

  /** A grammatical program is accepted without a report, and every token
      up to and including END_OF_FILE is consumed. */
  lemma {:induction false} RunGrammatical(ts: seq<Token>, n: nat)
    requires Grammatical(ts, n)
    ensures Run(ts) == State(4 * n + 1, [])
  {
    var st := State(0, []);
    StatementsAt(ts, n, 0);
    StatementOfWellFormed(ts, st);
    StatementsFromAll(ts, n, 1);
    LoopOfWellFormed(ts, n, 1, State(4, []));
  }

  /** A run that reports nothing was given a grammatical program: with
      `RunGrammatical`, the checker is silent exactly on the programs of the
      grammar. */
  lemma {:induction false} CleanRunIsGrammatical(ts: seq<Token>) returns (n: nat)
    requires Run(ts).errors == []
    ensures Grammatical(ts, n) && Run(ts).pos == 4 * n + 1
  {
    var st := State(0, []);
    var first := Statement(ts, st);
    var listed := StatementList(ts, st);
    assert |listed.errors| <= |Run(ts).errors|;
    assert |first.errors| <= |listed.errors|;
    StatementClean(ts, st);
    n := LoopClean(ts, 1, first, listed);
    StatementsOfFrom(ts, n);
  }
}

=== FILE: context.dfy ===
/** The two-attribute configuration context of context.c: a `values` array
    holding one C string per attribute, each possibly NULL. */
module Contexts {
  import opened Results
  import opened CStrings

  /** The attributes, in the order of context.c's ATTRIBUTE enum. */
  datatype Attribute = DbAttribute | UrlOpenCmdAttribute

  /** The contents of the `values` array: one buffer per attribute, `None`
      for NULL. */
  datatype Values = Values(db: Option<seq<char>>, urlOpenCmd: Option<seq<char>>)

  /** A context; `values` is `None` when the array pointer is NULL. */
  datatype Context = Context(values: Option<Values>)

  /** `context_malloc()`: a zeroed values array, so both attributes are NULL. */
  function ContextMalloc(): (c: Context)
    ensures c.values.Some?
    ensures GetDb(c).None? && GetUrlOpenCmd(c).None?
  {
    Context(Some(Values(None, None)))
  }

  /** `get_attribute(c, a)`: NULL when the values array is NULL. */
  function GetAttribute(c: Context, a: Attribute): Option<seq<char>> {
    match c.values
    case None => None
    case Some(v) => if a == DbAttribute then v.db else v.urlOpenCmd
  }

  function GetDb(c: Context): Option<seq<char>> {
    GetAttribute(c, DbAttribute)
  }

  function GetUrlOpenCmd(c: Context): Option<seq<char>> {
    GetAttribute(c, UrlOpenCmdAttribute)
  }

  /** What a setter leaves behind: its return code and the context (`None`
      for a NULL context pointer). */
  datatype SetOutcome = SetOutcome(status: int, context: Option<Context>)

  /** `set_attribute(context, attribute, value, length)`: refuses a NULL
      context, a NULL values array and a non-positive length, and otherwise
      stores a fresh `length`-character `strncpy` copy of `value`. */
  function SetAttribute(c: Option<Context>, a: Attribute, value: string, length: int): (r: SetOutcome)
    ensures r.status == 0 || r.status == 1
    ensures r.status == 1 <==> c.Some? && c.value.values.Some? && length > 0
    ensures r.status == 0 ==> r.context == c
    ensures r.status == 1 ==> r.context.Some? && r.context.value.values.Some?
    ensures r.status == 1 ==> GetAttribute(r.context.value, a) == Some(StrNCopy(value, length))
    ensures r.status == 1 ==> forall b :: b != a ==> GetAttribute(r.context.value, b) == GetAttribute(c.value, b)
  {
    if c.None? || c.value.values.None? || length <= 0 then SetOutcome(0, c)
    else
      var v := c.value.values.value;
      var copy := StrNCopy(value, length);
      var stored := if a == DbAttribute then v.(db := Some(copy)) else v.(urlOpenCmd := Some(copy));
      SetOutcome(1, Some(Context(Some(stored))))
  }

  function SetDb(c: Option<Context>, value: string, length: int): SetOutcome {
    SetAttribute(c, DbAttribute, value, length)
  }

  function SetUrlOpenCmd(c: Option<Context>, value: string, length: int): SetOutcome {
    SetAttribute(c, UrlOpenCmdAttribute, value, length)
  }

  /** `context_free(context)`: releases both attribute buffers and leaves
      both attributes NULL; the values array itself is kept. */
  function ContextFree(c: Context): (r: Context)
    requires c.values.Some?
    ensures r.values.Some?
    ensures GetDb(r).None? && GetUrlOpenCmd(r).None?
  {
    Context(Some(Values(None, None)))
  }

  /** The matching getter returns what the last successful set stored:
      a later set of the same attribute overwrites an earlier one. */
  lemma {:induction false} LastWriteWins(c: Context, a: Attribute, first: string, firstLength: int, second: string, secondLength: int)
    requires c.values.Some? && secondLength > 0
    ensures
      var once := SetAttribute(Some(c), a, first, firstLength).context;
      var twice := SetAttribute(once, a, second, secondLength).context;
      twice.Some? && GetAttribute(twice.value, a) == Some(StrNCopy(second, secondLength))
  {
  }

  /** `set_db` touches only the DB attribute and `set_url_open_cmd` only the
      URL_OPEN_CMD attribute. */
  lemma {:induction false} SettersIndependent(c: Context, value: string, length: int)
    requires c.values.Some? && length > 0
    ensures GetUrlOpenCmd(SetDb(Some(c), value, length).context.value) == GetUrlOpenCmd(c)
    ensures GetDb(SetUrlOpenCmd(Some(c), value, length).context.value) == GetDb(c)
    ensures GetDb(SetDb(Some(c), value, length).context.value) == Some(StrNCopy(value, length))
    ensures GetUrlOpenCmd(SetUrlOpenCmd(Some(c), value, length).context.value) == Some(StrNCopy(value, length))
  {
  }

  /** Setting an attribute to the whole of a non-empty C string stores
      exactly its characters, with no terminator after them. */
  lemma {:induction false} SetWholeString(c: Context, a: Attribute, value: string)
    requires c.values.Some? && CLength(value) > 0
    ensures
      var r := SetAttribute(Some(c), a, value, CLength(value));
      r.status == 1 && GetAttribute(r.context.value, a) == Some(CString(value)) && Nul !in CString(value)
  {
    StrNCopyWhole(value);
  }

  /** A freed context reads as fresh, and setting into it works again. */
  lemma {:induction false} FreeThenSet(c: Context, a: Attribute, value: string, length: int)
    requires c.values.Some? && length > 0
    ensures SetAttribute(Some(ContextFree(c)), a, value, length).status == 1
    ensures ContextFree(c) == ContextMalloc()
  {
  }

  /** A context is determined by whether it has a values array and by what
      its two getters return. */
  lemma {:induction false} ContextsEqual(c: Context, d: Context)
    requires c.values.Some? == d.values.Some?
    requires GetDb(c) == GetDb(d) && GetUrlOpenCmd(c) == GetUrlOpenCmd(d)
    ensures c == d
  {
  }
}

=== FILE: delete_option.dfy ===
/** The `delete` command-line option (kj.bo.options.Delete): each argument is
    converted to an id, the arguments that are not longs are reported, and
    the store's id-based delete is called once with every slot. */
module DeleteOption {
  import opened Results
  import opened JavaLong
  import opened Records
  import opened FileDatabase

  /** The slot an argument fills in the id array: its value when it parses as
      a long, the array's default 0 otherwise. */
  function Converted(arg: string): Long {
    ParseLong(arg).GetOr(0)
  }

  /** The line reported on standard error for an argument that is not a long. */
  function NotAnIdMessage(arg: string): string {
    arg + " not an id."
  }

  /** The id array, one slot per argument at the argument's index. */
  function ToIds(args: seq<string>): (ids: seq<Long>)
    ensures |ids| == |args|
    decreases |args|
  {
    if |args| == 0 then []
    else ToIds(args[..|args| - 1]) + [Converted(args[|args| - 1])]
  }

  /** Slot k holds the value of argument k, or 0 when it is not a long. */
  lemma {:induction false} ToIdsAt(args: seq<string>, k: nat)
    requires k < |args|
    ensures ParseLong(args[k]).Some? ==> ToIds(args)[k] == ParseLong(args[k]).value
    ensures ParseLong(args[k]).None? ==> ToIds(args)[k] == 0
    decreases |args|
  {
    var n := |args| - 1;
    if k < n {
      ToIdsAt(args[..n], k);
      assert args[..n][k] == args[k];
    }
  }

  /** The messages for the arguments that are not longs, in argument order. */
  function NotIdReports(args: seq<string>): (r: seq<string>)
    decreases |args|
  {
    if |args| == 0 then []
    else
      var last := args[|args| - 1];
      NotIdReports(args[..|args| - 1]) + (if ParseLong(last).None? then [NotAnIdMessage(last)] else [])
  }

  /** Two arguments with the same message are the same argument. */
  lemma {:induction false} NotAnIdMessageInjective(a: string, b: string)
    requires NotAnIdMessage(a) == NotAnIdMessage(b)
    ensures a == b
  {
    assert |a| == |b|;
    assert a == NotAnIdMessage(a)[..|a|];
    assert b == NotAnIdMessage(b)[..|b|];
  }

  /** The positions of the arguments that are not longs. */
  function BadPositions(args: seq<string>): set<nat> {
    set k: nat | k < |args| && ParseLong(args[k]).None?
  }

  /** An argument is reported exactly when it is not a long, once for each
      position it holds. */
  lemma {:induction false} NotIdReportsMembers(args: seq<string>)
    ensures |NotIdReports(args)| <= |args|
    ensures |NotIdReports(args)| == |BadPositions(args)|
    ensures forall a :: NotAnIdMessage(a) in NotIdReports(args) <==> a in args && ParseLong(a).None?
    decreases |args|
  {
    NotIdReportsCount(args);
    if |args| > 0 {
      var init := args[..|args| - 1];
      var last := args[|args| - 1];
      NotIdReportsMembers(init);
      assert args == init + [last];
      forall a | NotAnIdMessage(a) in NotIdReports(args)
        ensures a in args && ParseLong(a).None?
      {
        if NotAnIdMessage(a) !in NotIdReports(init) {
          NotAnIdMessageInjective(a, last);
        }
      }
    }
  }

  /** One report per position holding an argument that is not a long. */
  lemma {:induction false} NotIdReportsCount(args: seq<string>)
    ensures |NotIdReports(args)| == |BadPositions(args)| <= |args|
    decreases |args|
  {
    if |args| > 0 {
      var n := |args| - 1;
      var init := args[..n];
      NotIdReportsCount(init);
      var extra: set<nat> := if ParseLong(args[n]).None? then {n} else {};
      forall k: nat
        ensures k in BadPositions(args) <==> k in BadPositions(init) + extra
      {
        if k < n {
          assert init[k] == args[k];
        }
      }
      assert BadPositions(args) == BadPositions(init) + extra;
      assert n !in BadPositions(init);
    }
  }

  /** An argument given several times that is not a long is reported as
      many times as it is given; a long is never reported. */
  lemma {:induction false} NotIdReportsMultiplicity(args: seq<string>, a: string)
    ensures multiset(NotIdReports(args))[NotAnIdMessage(a)] ==
      (if ParseLong(a).None? then multiset(args)[a] else 0)
    decreases |args|
  {
    if |args| > 0 {
      var init := args[..|args| - 1];
      var last := args[|args| - 1];
      NotIdReportsMultiplicity(init, a);
      assert args == init + [last];
      if NotAnIdMessage(a) == NotAnIdMessage(last) {
        NotAnIdMessageInjective(a, last);
      }
    }
  }

  /** What `execute` leaves behind: the store's outcome (a failure propagates
      out of `execute` as the exception the store throws) and the messages
      printed before the store is called. */
  datatype Executed = Executed(outcome: Result<seq<string>, StoreError>, reports: seq<string>)

  /** `execute(args, db)`: the store's delete is called once, with the
      whole id array; after a successful delete an entry stays exactly when
      its id cannot be read or no argument converts to it, and exactly the
      arguments that are not longs are reported, once per position. */
  function Execute(args: seq<string>, file: seq<string>): (r: Executed)
    ensures r.outcome == DeleteIds(file, ToIds(args))
    ensures r.outcome.Success? ==> forall line :: line in r.outcome.value[1..] <==>
      line in file[1..] && !(RecordId(line).Some? && exists a :: a in args && Converted(a) == RecordId(line).value)
    ensures |r.reports| <= |args|
    ensures |r.reports| == |BadPositions(args)|
    ensures forall a :: NotAnIdMessage(a) in r.reports <==> a in args && ParseLong(a).None?
    ensures forall a ::
      multiset(r.reports)[NotAnIdMessage(a)] == (if ParseLong(a).None? then multiset(args)[a] else 0)
  {
    ToIdsMembers(args);
    NotIdReportsMembers(args);
    forall a
      ensures multiset(NotIdReports(args))[NotAnIdMessage(a)] ==
        (if ParseLong(a).None? then multiset(args)[a] else 0)
    {
      NotIdReportsMultiplicity(args, a);
    }
    Executed(DeleteIds(file, ToIds(args)), NotIdReports(args))
  }

  /** An id is in the array exactly when some argument converts to it. */
  lemma {:induction false} ToIdsMembers(args: seq<string>)
    ensures forall id :: id in ToIds(args) <==> exists a :: a in args && Converted(a) == id
    decreases |args|
  {
    if |args| > 0 {
      var init := args[..|args| - 1];
      ToIdsMembers(init);
      assert args == init + [args[|args| - 1]];
    }
  }

  /** An argument that is not a long still fills its slot with 0, so an entry
      with id 0 is deleted along with the requested ones. */
  lemma {:induction false} BadArgumentDeletesIdZero(args: seq<string>, file: seq<string>, k: nat)
    requires k < |args| && ParseLong(args[k]).None?
    requires Execute(args, file).outcome.Success?
    ensures forall line :: line in Execute(args, file).outcome.value[1..] ==> RecordId(line) != Some(0)
  {
    ToIdsAt(args, k);
    assert ToIds(args)[k] == 0;
  }
}

=== FILE: entity.dfy ===
/** The bookmark `Entity` (kj.bo.Entity): an id, a url and a tag array, each
    of the two references possibly null. */
module Entities {
  import opened Results
  import opened JavaLong

  datatype Entity = Entity(id: Long, url: Option<string>, tags: Option<seq<string>>)

  /** `new Entity()`: every field at its Java default. */
  function NewEntity(): (e: Entity)
    ensures e.id == 0 && e.url.None? && e.tags.None?
  {
    Entity(0, None, None)
  }

  /** `new Entity(id)`: the id is stored, url and tags stay null. */
  function EntityWithId(id: Long): (e: Entity)
    ensures e.id == id && e.url.None? && e.tags.None?
  {
    Entity(id, None, None)
  }

  /** `new Entity(url, tags)`: url and tags are stored, the id stays 0 until
      the store assigns one. */
  function EntityOf(url: Option<string>, tags: Option<seq<string>>): (e: Entity)
    ensures e.id == 0 && e.url == url && e.tags == tags
  {
    Entity(0, url, tags)
  }

  /** `setId`: `getId` afterwards returns `id`; url and tags are untouched. */
  function SetId(e: Entity, id: Long): (r: Entity)
    ensures r.id == id && r.url == e.url && r.tags == e.tags
  {
    e.(id := id)
  }

  /** `setUrl`: `getUrl` afterwards returns `url`; id and tags are untouched. */
  function SetUrl(e: Entity, url: Option<string>): (r: Entity)
    ensures r.url == url && r.id == e.id && r.tags == e.tags
  {
    e.(url := url)
  }

  /** `setTags`: `getTags` afterwards returns `tags`; id and url are untouched. */
  function SetTags(e: Entity, tags: Option<seq<string>>): (r: Entity)
    ensures r.tags == tags && r.id == e.id && r.url == e.url
  {
    e.(tags := tags)
  }
}

=== FILE: file_database.dfy ===
/** The flat-file bookmark store (kj.bo.database.FileDatabase). The file is a
    sequence of lines: line 0 the header, every other line an entry. Every
    operation takes the file's current lines, as the store re-reads the file
    on each call; `add` and `delete` return the lines written back. */
module FileDatabase {
  import opened Results
  import opened JavaLong
  import opened Records
  import opened Headers
  import opened Entities

  /** `a` is `b` with some lines left out, the rest in the same order. */
  predicate Subsequence(a: seq<string>, b: seq<string>)
    decreases |b|
  {
    || |a| == 0
    || (&& |b| > 0
        && ((a[|a| - 1] == b[|b| - 1] && Subsequence(a[..|a| - 1], b[..|b| - 1]))
            || Subsequence(a, b[..|b| - 1])))
  }

  /** What a lookup or a deletion matches entry lines on. */
  datatype Criterion = IdAmong(ids: seq<Long>) | UrlAmong(urls: seq<string>)

  /** A line matches when the field the criterion looks at can be read and
      is one of the criterion's values. */
  predicate Holds(c: Criterion, line: string) {
    match c
    case IdAmong(ids) => RecordId(line).Some? && RecordId(line).value in ids
    case UrlAmong(urls) => RecordUrl(line).Some? && RecordUrl(line).value in urls
  }

  /** The lines of `s` for which `Holds(c, _)` equals `wanted`, in order. */
  function Lines(s: seq<string>, c: Criterion, wanted: bool): (r: seq<string>)
    ensures |r| <= |s|
    ensures Subsequence(r, s)
    decreases |s|
  {
    if |s| == 0 then []
    else
      var init := Lines(s[..|s| - 1], c, wanted);
      var last := s[|s| - 1];
      assert s == s[..|s| - 1] + [last];
      if Holds(c, last) == wanted then
        var r := init + [last];
        assert r[..|r| - 1] == init;
        r
      else init
  }

  /** A line is selected exactly when it is in `s` with the wanted verdict. */
  lemma {:induction false} LinesMembers(s: seq<string>, c: Criterion, wanted: bool)
    ensures forall x :: x in Lines(s, c, wanted) <==> x in s && Holds(c, x) == wanted
    decreases |s|
  {
    if |s| > 0 {
      LinesMembers(s[..|s| - 1], c, wanted);
      assert s == s[..|s| - 1] + [s[|s| - 1]];
    }
  }

  lemma {:induction false} LinesAppend(a: seq<string>, b: seq<string>, c: Criterion, wanted: bool)
    ensures Lines(a + b, c, wanted) == Lines(a, c, wanted) + Lines(b, c, wanted)
    decreases |b|
  {
    if |b| == 0 {
      assert a + b == a;
    } else {
      assert (a + b)[..|a + b| - 1] == a + b[..|b| - 1];
      LinesAppend(a, b[..|b| - 1], c, wanted);
    }
  }

  /** Every line is either selected or rejected: the two selections share
      out the lines between them. */
  lemma {:induction false} LinesPartition(s: seq<string>, c: Criterion)
    ensures |Lines(s, c, true)| + |Lines(s, c, false)| == |s|
    decreases |s|
  {
    if |s| > 0 {
      LinesPartition(s[..|s| - 1], c);
    }
  }

  /** Two criteria that agree on every line select the same lines. */
  lemma {:induction false} LinesAgree(s: seq<string>, c1: Criterion, c2: Criterion, wanted: bool)
    requires forall i :: 0 <= i < |s| ==> Holds(c1, s[i]) == Holds(c2, s[i])
    ensures Lines(s, c1, wanted) == Lines(s, c2, wanted)
    decreases |s|
  {
    if |s| > 0 {
      LinesAgree(s[..|s| - 1], c1, c2, wanted);
    }
  }

  /** When no line's verdict is `wanted`, nothing is selected. */
  lemma {:induction false} LinesNone(s: seq<string>, c: Criterion, wanted: bool)
    requires forall i :: 0 <= i < |s| ==> Holds(c, s[i]) != wanted
    ensures Lines(s, c, wanted) == []
    decreases |s|
  {
    if |s| > 0 {
      var init := s[..|s| - 1];
      assert forall i :: 0 <= i < |init| ==> init[i] == s[i];
      LinesNone(init, c, wanted);
    }
  }

  /** When every line's verdict is `wanted`, everything is selected. */
  lemma {:induction false} LinesAll(s: seq<string>, c: Criterion, wanted: bool)
    requires forall i :: 0 <= i < |s| ==> Holds(c, s[i]) == wanted
    ensures Lines(s, c, wanted) == s
    decreases |s|
  {
    if |s| > 0 {
      var init := s[..|s| - 1];
      assert forall i :: 0 <= i < |init| ==> init[i] == s[i];
      LinesAll(init, c, wanted);
      assert s == init + [s[|s| - 1]];
    }
  }

  /** `getAll()`: every line but the header, in file order. `None` stands for
      the IndexOutOfBoundsException of removing line 0 from an empty file. */
  function GetAll(file: seq<string>): (r: Option<seq<string>>)
    ensures r.None? <==> |file| == 0
    ensures r.Some? ==> |r.value| == |file| - 1
  {
    if |file| == 0 then None else Some(file[1..])
  }

  /** The entries are the lines after the header, in file order. */
  lemma {:induction false} GetAllEntries(file: seq<string>, i: nat)
    requires i + 1 < |file|
    ensures GetAll(file).Some? && GetAll(file).value[i] == file[i + 1]
  {
  }

  /** The requested ids that can exist, those not above the highest id, in
      request order. */
  function Requested(ids: seq<Long>, maxId: Long): (r: seq<Long>)
    ensures |r| <= |ids|
    ensures forall id :: id in r <==> id in ids && id <= maxId
    decreases |ids|
  {
    if |ids| == 0 then []
    else
      var last := ids[|ids| - 1];
      assert ids == ids[..|ids| - 1] + [last];
      Requested(ids[..|ids| - 1], maxId) + (if last <= maxId then [last] else [])
  }

  /** The lookup as the source writes it: a line whose id field is not a
      number makes `getField` hand back the line itself, and casting that to
      `long` throws ClassCastException; a line without an id field throws
      ArrayIndexOutOfBoundsException. Either way the whole lookup fails
      (`None`); otherwise it keeps the lines whose id is among `ids`. */
  function SelectAsWritten(lines: seq<string>, ids: seq<Long>): (r: Option<seq<string>>)
    ensures r.None? <==> exists i :: 0 <= i < |lines| && RecordId(lines[i]).None?
    ensures r.Some? ==> r.value == Lines(lines, IdAmong(ids), true)
    decreases |lines|
  {
    if |lines| == 0 then Some([])
    else
      var init := lines[..|lines| - 1];
      var last := lines[|lines| - 1];
      assert lines == init + [last];
      assert forall i :: 0 <= i < |init| ==> init[i] == lines[i];
      match SelectAsWritten(init, ids)
      case None => None
      case Some(found) =>
        match RecordId(last)
        case None => None
        case Some(id) => Some(if id in ids then found + [last] else found)
  }

  /** `get(ids)`: the entry lines whose id is one of the requested ids not
      above the highest id, in file order. Lines whose id cannot be read are
      skipped (see `SelectAsWritten` for the source's behaviour). */
  function Get(h: Header, file: seq<string>, ids: seq<Long>): (r: Option<seq<string>>)
    ensures r.None? <==> |file| == 0
    ensures r.Some? ==> Subsequence(r.value, file[1..])
  {
    match GetAll(file)
    case None => None
    case Some(body) => Some(Lines(body, IdAmong(Requested(ids, h.maxId)), true))
  }

  /** A line is found exactly when it is an entry line whose id can be read,
      is requested and is not above the highest id. */
  lemma {:induction false} GetMembers(h: Header, file: seq<string>, ids: seq<Long>)
    requires |file| >= 1
    ensures Get(h, file, ids).Some?
    ensures forall line :: line in Get(h, file, ids).value <==>
      line in file[1..] && RecordId(line).Some? && RecordId(line).value in ids && RecordId(line).value <= h.maxId
  {
    LinesMembers(file[1..], IdAmong(Requested(ids, h.maxId)), true);
  }

  /** Where every entry line has a readable id, the source's lookup and the
      corrected one agree; one unreadable line makes the source's fail. */
  lemma {:induction false} GetMatchesSourceOnReadableFiles(h: Header, file: seq<string>, ids: seq<Long>)
    requires |file| >= 1
    ensures (forall i :: 1 <= i < |file| ==> RecordId(file[i]).Some?) <==>
      SelectAsWritten(file[1..], Requested(ids, h.maxId)) == Get(h, file, ids)
  {
    var body := file[1..];
    if exists i :: 0 <= i < |body| && RecordId(body[i]).None? {
      var i :| 0 <= i < |body| && RecordId(body[i]).None?;
      assert RecordId(file[i + 1]).None?;
    }
  }

  /** Only which ids are requested matters: neither their order nor repeats
      change the lines found. */
  lemma {:induction false} GetDependsOnIdSet(h: Header, file: seq<string>, ids1: seq<Long>, ids2: seq<Long>)
    requires forall id :: id in ids1 <==> id in ids2
    ensures Get(h, file, ids1) == Get(h, file, ids2)
  {
    if |file| > 0 {
      LinesAgree(file[1..], IdAmong(Requested(ids1, h.maxId)), IdAmong(Requested(ids2, h.maxId)), true);
    }
  }

  /** `getSequential(ids)` written as the two passes the stream pipeline
      makes: keep the ids not above the highest id, then keep the entry lines
      whose id is one of them. It returns what `get` returns. */
  method GetSequential(h: Header, file: seq<string>, ids: seq<Long>) returns (r: Option<seq<string>>)
    ensures r == Get(h, file, ids)
  {
    if |file| == 0 {
      return None;
    }
    var processed: seq<Long> := [];
    var k := 0;
    while k < |ids|
      invariant 0 <= k <= |ids|
      invariant processed == Requested(ids[..k], h.maxId)
    {
      assert ids[..k + 1][..k] == ids[..k];
      if ids[k] <= h.maxId {
        processed := processed + [ids[k]];
      }
      k := k + 1;
    }
    assert ids[..k] == ids;
    var body := file[1..];
    var found: seq<string> := [];
    var i := 0;
    while i < |body|
      invariant 0 <= i <= |body|
      invariant found == Lines(body[..i], IdAmong(processed), true)
    {
      assert body[..i + 1][..i] == body[..i];
      if Holds(IdAmong(processed), body[i]) {
        found := found + [body[i]];
      }
      i := i + 1;
    }
    assert body[..i] == body;
    return Some(found);
  }

  /** Why `add` or `delete` leaves the file alone: the file cannot be opened,
      an entity has a null url or tag array, or a counter would pass the
      range of a long. */
  datatype StoreError = Unopenable(cause: OpenError) | MalformedEntity | CounterOverflow

  /** No entity of the batch has a null url or a null tag array (checked
      from the end, the order `NewRecords` builds in). */
  predicate AllWellFormed(es: seq<Entity>)
    decreases |es|
  {
    |es| == 0 || (es[|es| - 1].url.Some? && es[|es| - 1].tags.Some? && AllWellFormed(es[..|es| - 1]))
  }

  /** `AllWellFormed` says exactly that every entity has a url and tags. */
  lemma {:induction false} AllWellFormedIff(es: seq<Entity>)
    ensures AllWellFormed(es) <==> forall i :: 0 <= i < |es| ==> es[i].url.Some? && es[i].tags.Some?
    decreases |es|
  {
    if |es| > 0 {
      var init := es[..|es| - 1];
      AllWellFormedIff(init);
      assert forall i :: 0 <= i < |init| ==> init[i] == es[i];
    }
  }

  lemma {:induction false} WellFormedAt(es: seq<Entity>, i: nat)
    requires AllWellFormed(es) && i < |es|
    ensures es[i].url.Some? && es[i].tags.Some?
    decreases |es|
  {
    if i < |es| - 1 {
      WellFormedAt(es[..|es| - 1], i);
    }
  }

  /** The lines for `es`, numbered from `first` in input order. */
  function NewRecords(es: seq<Entity>, first: int): (r: seq<string>)
    requires AllWellFormed(es)
    requires MinLong <= first && first + |es| - 1 <= MaxLong
    ensures |r| == |es|
    decreases |es|
  {
    if |es| == 0 then []
    else
      var n := |es| - 1;
      NewRecords(es[..n], first) + [EncodeRecord(first + n, es[n].url.value, es[n].tags.value)]
  }

  /** The i-th new line is the i-th entity encoded with id `first + i`. */
  lemma {:induction false} NewRecordAt(es: seq<Entity>, first: int, i: nat)
    requires AllWellFormed(es)
    requires MinLong <= first && first + |es| - 1 <= MaxLong
    requires i < |es|
    ensures es[i].url.Some? && es[i].tags.Some?
    ensures NewRecords(es, first)[i] == EncodeRecord(first + i, es[i].url.value, es[i].tags.value)
    decreases |es|
  {
    var n := |es| - 1;
    if i < n {
      NewRecordAt(es[..n], first, i);
      assert es[..n][i] == es[i];
    }
  }

  /** `add(entities)` as the store's tests require it: an empty batch leaves
      the file untouched; otherwise the entities get ids highestId+1,
      highestId+2, ... in input order, their lines are appended after the
      existing ones, and both header counters grow by the batch size. */
  function Add(file: seq<string>, es: seq<Entity>): (r: Result<seq<string>, StoreError>)
    ensures |es| == 0 ==> r == Success(file)
    ensures Open(file).Failure? && |es| > 0 ==> r == Failure(Unopenable(Open(file).error))
    ensures Open(file).Success? && |es| > 0 && !AllWellFormed(es) ==> r == Failure(MalformedEntity)
    ensures r == Failure(CounterOverflow) <==>
      && |es| > 0 && Open(file).Success? && AllWellFormed(es)
      && (Open(file).value.numOfEntries + |es| > MaxLong || Open(file).value.maxId + |es| > MaxLong)
    ensures r.Success? ==> |r.value| == |file| + |es|
    ensures r.Success? && |es| > 0 ==> r.value[1..|file|] == file[1..]
  {
    if |es| == 0 then Success(file)
    else
      match Open(file)
      case Failure(e) => Failure(Unopenable(e))
      case Success(h) =>
        if !AllWellFormed(es) then Failure(MalformedEntity)
        else if h.numOfEntries + |es| > MaxLong || h.maxId + |es| > MaxLong then Failure(CounterOverflow)
        else
          Success(Appended(h, file, es))
  }

  /** The file `add` writes when it succeeds: the header with both counters
      raised by the batch size, the old entries, then the new records. */
  function Appended(h: Header, file: seq<string>, es: seq<Entity>): (r: seq<string>)
    requires |file| >= 1 && AllWellFormed(es)
    requires h.numOfEntries + |es| <= MaxLong && h.maxId + |es| <= MaxLong
    ensures |r| == |file| + |es|
    ensures r[1..] == file[1..] + NewRecords(es, h.maxId + 1)
  {
    var h' := Header(h.numOfEntries + |es|, h.maxId + |es|);
    var tail := file[1..] + NewRecords(es, h.maxId + 1);
    assert ([HeaderLine(h')] + tail)[1..] == tail;
    [HeaderLine(h')] + tail
  }

  /** The written file opens to the raised counters. */
  lemma {:induction false} OpenAppended(h: Header, file: seq<string>, es: seq<Entity>)
    requires |file| >= 1 && AllWellFormed(es)
    requires h.numOfEntries + |es| <= MaxLong && h.maxId + |es| <= MaxLong
    ensures Open(Appended(h, file, es)) == Success(Header(h.numOfEntries + |es|, h.maxId + |es|))
  {
    var h' := Header(h.numOfEntries + |es|, h.maxId + |es|);
    var tail := file[1..] + NewRecords(es, h.maxId + 1);
    assert Appended(h, file, es) == [HeaderLine(h')] + tail;
    OpenAfterWrite(h', tail);
  }

  /** After a non-empty `add` the file still opens, and both header counters
      have grown by the batch size. */
  lemma {:induction false} AddUpdatesHeader(file: seq<string>, es: seq<Entity>)
    requires |es| > 0 && Add(file, es).Success?
    ensures Open(file).Success? && Open(Add(file, es).value).Success?
    ensures Open(Add(file, es).value).value.numOfEntries == Open(file).value.numOfEntries + |es|
    ensures Open(Add(file, es).value).value.maxId == Open(file).value.maxId + |es|
  {
    AddWrites(file, es);
    OpenAppended(Open(file).value, file, es);
  }

  /** A non-empty `add` that succeeds writes `Appended` of the opened header. */
  lemma {:induction false} AddWrites(file: seq<string>, es: seq<Entity>)
    requires |es| > 0 && Add(file, es).Success?
    ensures Open(file).Success? && |file| >= 1 && AllWellFormed(es)
    ensures Open(file).value.numOfEntries + |es| <= MaxLong && Open(file).value.maxId + |es| <= MaxLong
    ensures Add(file, es).value == Appended(Open(file).value, file, es)
  {
  }

  /** Each new line carries the id it was numbered with, and reads back
      with its entity's url and tags when the line format can carry them. */
  lemma {:induction false} NewRecordFields(es: seq<Entity>, first: int, i: nat)
    requires AllWellFormed(es)
    requires MinLong <= first && first + |es| - 1 <= MaxLong
    requires i < |es|
    ensures RecordId(NewRecords(es, first)[i]) == Some(first + i)
    ensures es[i].url.Some? && es[i].tags.Some?
    ensures Representable(es[i].url.value, es[i].tags.value) ==>
      && GetField(Url, NewRecords(es, first)[i]) == Some(UrlValue(es[i].url.value))
      && GetField(Tags, NewRecords(es, first)[i]) == Some(TagsValue(es[i].tags.value))
  {
    WellFormedAt(es, i);
    NewRecordAt(es, first, i);
    RecordIdOfEncode(first + i, es[i].url.value, es[i].tags.value);
    if Representable(es[i].url.value, es[i].tags.value) {
      DecodeOfEncode(first + i, es[i].url.value, es[i].tags.value);
    }
  }

  /** When exactly the i-th line matches, selection yields that line alone. */
  lemma {:induction false} LinesSingle(s: seq<string>, c: Criterion, i: nat)
    requires i < |s|
    requires forall j :: 0 <= j < |s| ==> (Holds(c, s[j]) <==> j == i)
    ensures Lines(s, c, true) == [s[i]]
    decreases |s|
  {
    var init := s[..|s| - 1];
    if i == |s| - 1 {
      assert forall j :: 0 <= j < |init| ==> init[j] == s[j];
      LinesNone(init, c, true);
    } else {
      assert forall j :: 0 <= j < |init| ==> init[j] == s[j];
      LinesSingle(init, c, i);
    }
  }

  /** The j-th new line carries the id it was numbered with. */
  lemma {:induction false} NewRecordIdAt(es: seq<Entity>, first: int, j: nat)
    requires AllWellFormed(es)
    requires MinLong <= first && first + |es| - 1 <= MaxLong
    requires j < |es|
    ensures RecordId(NewRecords(es, first)[j]) == Some(first + j)
  {
    NewRecordAt(es, first, j);
    RecordIdOfEncode(first + j, es[j].url.value, es[j].tags.value);
  }

  /** Among freshly numbered records, an id picks out exactly its record. */
  lemma {:induction false} NewRecordsSelect(es: seq<Entity>, first: int, i: nat, id: Long)
    requires AllWellFormed(es)
    requires MinLong <= first && first + |es| - 1 <= MaxLong
    requires i < |es| && id == first + i
    ensures Lines(NewRecords(es, first), IdAmong([id]), true) == [NewRecords(es, first)[i]]
  {
    var news := NewRecords(es, first);
    forall j | 0 <= j < |news|
      ensures Holds(IdAmong([id]), news[j]) <==> j == i
    {
      NewRecordIdAt(es, first, j);
    }
    LinesSingle(news, IdAmong([id]), i);
  }

  /** Looking up the id of the i-th freshly numbered record yields that
      entity's encoding alone. */
  lemma {:induction false} NewRecordsLookup(es: seq<Entity>, first: int, i: nat, id: Long)
    requires AllWellFormed(es)
    requires MinLong <= first && first + |es| - 1 <= MaxLong
    requires i < |es| && id == first + i
    ensures es[i].url.Some? && es[i].tags.Some?
    ensures Lines(NewRecords(es, first), IdAmong([id]), true) == [EncodeRecord(id, es[i].url.value, es[i].tags.value)]
  {
    NewRecordsSelect(es, first, i, id);
    NewRecordAt(es, first, i);
  }

  /** The i-th new record is line |file| + i of the written file. */
  lemma {:induction false} AppendedLine(h: Header, file: seq<string>, es: seq<Entity>, i: nat)
    requires |file| >= 1 && AllWellFormed(es)
    requires h.numOfEntries + |es| <= MaxLong && h.maxId + |es| <= MaxLong
    requires i < |es|
    ensures Appended(h, file, es)[|file| + i] == NewRecords(es, h.maxId + 1)[i]
  {
    ShiftedIndex(Appended(h, file, es), file[1..], NewRecords(es, h.maxId + 1), i);
  }

  lemma {:induction false} ShiftedIndex(r: seq<string>, prior: seq<string>, news: seq<string>, k: nat)
    requires |r| >= 1 && r[1..] == prior + news && k < |news|
    ensures r[|prior| + 1 + k] == news[k]
  {
    assert r[|prior| + 1 + k] == r[1..][|prior| + k];
  }

  /** Line |file| + i of the written file is the i-th entity, encoded with
      id highestId + 1 + i. */
  lemma {:induction false} AddedLine(file: seq<string>, es: seq<Entity>, i: nat)
    requires |es| > 0 && Add(file, es).Success?
    requires i < |es|
    ensures Open(file).Success? && es[i].url.Some? && es[i].tags.Some?
    ensures |file| + i < |Add(file, es).value|
    ensures Add(file, es).value[|file| + i]
      == EncodeRecord(Open(file).value.maxId + 1 + i, es[i].url.value, es[i].tags.value)
  {
    AddWrites(file, es);
    var h := Open(file).value;
    AppendedLine(h, file, es, i);
    NewRecordAt(es, h.maxId + 1, i);
  }

  /** The i-th added entity is written on line |file| + i with id
      highestId + 1 + i. */
  lemma {:induction false} AddAssignsSequentialIds(file: seq<string>, es: seq<Entity>, i: nat)
    requires |es| > 0 && Add(file, es).Success?
    requires i < |es|
    ensures RecordId(Add(file, es).value[|file| + i]) == Some(Open(file).value.maxId + 1 + i)
  {
    AddedLine(file, es, i);
    RecordIdOfEncode(Open(file).value.maxId + 1 + i, es[i].url.value, es[i].tags.value);
  }

  /** The line written for the i-th added entity reads back with its url
      and tags whenever the line format can carry them. */
  lemma {:induction false} AddKeepsFields(file: seq<string>, es: seq<Entity>, i: nat)
    requires |es| > 0 && Add(file, es).Success?
    requires i < |es|
    ensures es[i].url.Some? && es[i].tags.Some?
    ensures Representable(es[i].url.value, es[i].tags.value) ==>
      && GetField(Url, Add(file, es).value[|file| + i]) == Some(UrlValue(es[i].url.value))
      && GetField(Tags, Add(file, es).value[|file| + i]) == Some(TagsValue(es[i].tags.value))
  {
    AddedLine(file, es, i);
    if Representable(es[i].url.value, es[i].tags.value) {
      DecodeOfEncode(Open(file).value.maxId + 1 + i, es[i].url.value, es[i].tags.value);
    }
  }

  /** The line's id, when it can be read, is at most `maxId`. */
  predicate IdAtMost(line: string, maxId: int) {
    RecordId(line).Some? ==> RecordId(line).value <= maxId
  }

  /** `p` holds of every line (checked from the last line back). */
  predicate EveryLine(lines: seq<string>, p: string -> bool)
    decreases |lines|
  {
    |lines| == 0 || (p(lines[|lines| - 1]) && EveryLine(lines[..|lines| - 1], p))
  }

  lemma {:induction false} EveryLineIff(lines: seq<string>, p: string -> bool)
    ensures EveryLine(lines, p) <==> forall j :: 0 <= j < |lines| ==> p(lines[j])
    decreases |lines|
  {
    if |lines| > 0 {
      var init := lines[..|lines| - 1];
      EveryLineIff(init, p);
      assert forall j :: 0 <= j < |init| ==> init[j] == lines[j];
    }
  }

  /** Every entry whose id can be read carries an id of at most `maxId`. */
  predicate IdsAtMost(entries: seq<string>, maxId: int) {
    EveryLine(entries, line => IdAtMost(line, maxId))
  }

  /** `IdsAtMost` says exactly that no readable id exceeds `maxId`. */
  lemma {:induction false} IdsAtMostIff(entries: seq<string>, maxId: int)
    ensures IdsAtMost(entries, maxId) <==> forall j :: 0 <= j < |entries| ==> IdAtMost(entries[j], maxId)
  {
    EveryLineIff(entries, line => IdAtMost(line, maxId));
  }

  /** When no entry carries an id above the highest id, looking up the id
      given to the i-th added entity finds exactly that entity's line. */
  lemma {:induction false} GetAfterAdd(file: seq<string>, es: seq<Entity>, i: nat, id: Long)
    requires |es| > 0 && Add(file, es).Success?
    requires i < |es|
    requires IdsAtMost(file[1..], Open(file).value.maxId)
    requires id == Open(file).value.maxId + 1 + i
    ensures es[i].url.Some? && es[i].tags.Some?
    ensures
      var r := Add(file, es).value;
      Open(r).Success? && Get(Open(r).value, r, [id]) == Some([EncodeRecord(id, es[i].url.value, es[i].tags.value)])
  {
    AddWrites(file, es);
    var h := Open(file).value;
    OpenAppended(h, file, es);
    GetAfterAppended(h, file, es, i, id);
  }

  lemma {:induction false} GetAfterAppended(h: Header, file: seq<string>, es: seq<Entity>, i: nat, id: Long)
    requires |file| >= 1 && AllWellFormed(es)
    requires h.numOfEntries + |es| <= MaxLong && h.maxId + |es| <= MaxLong
    requires i < |es|
    requires IdsAtMost(file[1..], h.maxId)
    requires id == h.maxId + 1 + i
    ensures es[i].url.Some? && es[i].tags.Some?
    ensures Get(Header(h.numOfEntries + |es|, h.maxId + |es|), Appended(h, file, es), [id])
      == Some([EncodeRecord(id, es[i].url.value, es[i].tags.value)])
  {
    NewRecordsLookup(es, h.maxId + 1, i, id);
    NoLaterIds(file[1..], h.maxId, id);
    GetAppended(Header(h.numOfEntries + |es|, h.maxId + |es|), Appended(h, file, es), file[1..],
                NewRecords(es, h.maxId + 1), EncodeRecord(id, es[i].url.value, es[i].tags.value), id);
  }

  /** An id above every readable id of the entries matches none of them. */
  lemma {:induction false} NoLaterIds(entries: seq<string>, maxId: int, id: Long)
    requires IdsAtMost(entries, maxId)
    requires id > maxId
    ensures Lines(entries, IdAmong([id]), true) == []
    decreases |entries|
  {
    if |entries| > 0 {
      assert IdAtMost(entries[|entries| - 1], maxId);
      NoLaterIds(entries[..|entries| - 1], maxId, id);
    }
  }

  /** A lookup in a file whose entries are `prior` followed by `news` finds
      just `line` when that is the one match and it lies among `news`. */
  lemma {:induction false} GetAppended(h: Header, r: seq<string>, prior: seq<string>, news: seq<string>,
                                      line: string, id: Long)
    requires |r| >= 1 && r[1..] == prior + news
    requires id <= h.maxId
    requires Lines(prior, IdAmong([id]), true) == []
    requires Lines(news, IdAmong([id]), true) == [line]
    ensures Get(h, r, [id]) == Some([line])
  {
    assert Requested([id], h.maxId) == [id] by {
      assert [id][..0] == [];
    }
    LinesAppend(prior, news, IdAmong([id]), true);
  }

  /** Deletion: the entry lines the criterion matches are dropped, the others
      kept in order, the entry count lowered by the number dropped and the
      highest id kept, so that ids are never handed out twice. */
  function DeleteWhere(file: seq<string>, c: Criterion): (r: Result<seq<string>, StoreError>)
    ensures Open(file).Failure? ==> r == Failure(Unopenable(Open(file).error))
    ensures r == Failure(CounterOverflow) <==>
      Open(file).Success? && Open(file).value.numOfEntries - |Lines(file[1..], c, true)| < MinLong
    ensures r.Success? ==> |r.value| >= 1 && Open(file).Success? && Open(r.value).Success?
    ensures r.Success? ==>
      && Open(r.value).value.numOfEntries == Open(file).value.numOfEntries - |Lines(file[1..], c, true)|
      && Open(r.value).value.maxId == Open(file).value.maxId
    ensures r.Success? ==> r.value[1..] == Lines(file[1..], c, false)
    ensures r.Success? ==> |r.value| == |file| - |Lines(file[1..], c, true)|
    ensures r.Success? ==> forall line :: line in r.value[1..] <==> line in file[1..] && !Holds(c, line)
  {
    match Open(file)
    case Failure(e) => Failure(Unopenable(e))
    case Success(h) =>
      var kept := Lines(file[1..], c, false);
      LinesMembers(file[1..], c, false);
      LinesPartition(file[1..], c);
      var removed := |file| - 1 - |kept|;
      if h.numOfEntries - removed < MinLong then Failure(CounterOverflow)
      else
        var h' := Header(h.numOfEntries - removed, h.maxId);
        OpenAfterWrite(h', kept);
        assert ([HeaderLine(h')] + kept)[1..] == kept;
        Success([HeaderLine(h')] + kept)
  }

  /** `delete(long[] ids)`: drops every entry whose id is among `ids`; ids
      that match no entry are ignored. */
  function DeleteIds(file: seq<string>, ids: seq<Long>): (r: Result<seq<string>, StoreError>)
    ensures r.Success? ==> |r.value| >= 1 && |file| >= 1
    ensures r.Success? ==> forall line :: line in r.value[1..] <==>
      line in file[1..] && !(RecordId(line).Some? && RecordId(line).value in ids)
  {
    DeleteWhere(file, IdAmong(ids))
  }

  /** `delete(String[] urls)`: drops every entry whose url is among `urls`. */
  function DeleteUrls(file: seq<string>, urls: seq<string>): (r: Result<seq<string>, StoreError>)
    ensures r.Success? ==> |r.value| >= 1 && |file| >= 1
    ensures r.Success? ==> forall line :: line in r.value[1..] <==>
      line in file[1..] && !(RecordUrl(line).Some? && RecordUrl(line).value in urls)
  {
    DeleteWhere(file, UrlAmong(urls))
  }

  /** Deleting ids no entry carries rewrites the same entries under the same
      header values. */
  lemma {:induction false} DeleteAbsentIds(file: seq<string>, ids: seq<Long>)
    requires Open(file).Success?
    requires forall j :: 1 <= j < |file| ==> !Holds(IdAmong(ids), file[j])
    ensures DeleteIds(file, ids) == Success([HeaderLine(Open(file).value)] + file[1..])
  {
    var body := file[1..];
    assert forall i :: 0 <= i < |body| ==> Holds(IdAmong(ids), body[i]) == false by {
      forall i | 0 <= i < |body|
        ensures Holds(IdAmong(ids), body[i]) == false
      {
        assert body[i] == file[i + 1];
      }
    }
    LinesAll(body, IdAmong(ids), false);
    assert Lines(body, IdAmong(ids), false) == body;
  }
}

=== FILE: header.dfy ===
/** The store's first line, "NUM_ENTRIES HIGHEST_ID" (the `Headder` class of
    kj.bo.database.FileDatabase), and opening a store from it. */
module Headers {
  import opened Results
  import opened JavaLong
  import opened JavaString
  import opened Records

  datatype Header = Header(numOfEntries: Long, maxId: Long)

  /** Why a store cannot be opened: the file has no first line (the reader
      returns null), the header lacks a field (ArrayIndexOutOfBoundsException),
      or a header field is not a long (NumberFormatException). */
  datatype OpenError =
    | EmptyFile
    | MissingHeaderField(index: nat)
    | HeaderFieldNotANumber(index: nat)

  /** `new Headder(line)`: the first two space-separated fields, parsed in the
      order NUM_ENTRIES, HIGHEST_ID; further fields are ignored. */
  function ParseHeader(line: string): (r: Result<Header, OpenError>)
    ensures r.Success? <==>
      var v := Split(line, Separator);
      |v| >= 2 && ParseLong(v[0]).Some? && ParseLong(v[1]).Some?
    ensures r.Success? ==>
      var v := Split(line, Separator);
      Some(r.value.numOfEntries) == ParseLong(v[0]) && Some(r.value.maxId) == ParseLong(v[1])
    ensures r == Failure(MissingHeaderField(0)) <==> |Split(line, Separator)| == 0
    ensures r == Failure(HeaderFieldNotANumber(0)) <==>
      var v := Split(line, Separator);
      |v| >= 1 && ParseLong(v[0]).None?
    ensures r == Failure(MissingHeaderField(1)) <==>
      var v := Split(line, Separator);
      |v| == 1 && ParseLong(v[0]).Some?
    ensures r == Failure(HeaderFieldNotANumber(1)) <==>
      var v := Split(line, Separator);
      |v| >= 2 && ParseLong(v[0]).Some? && ParseLong(v[1]).None?
    ensures r.Failure? ==> r.error != EmptyFile
  {
    var values := Split(line, Separator);
    // A line of spaces only splits into no fields at all (see BlankHeaderHasNoFields).
    if |values| < 1 then Failure(MissingHeaderField(0))
    else if ParseLong(values[0]).None? then Failure(HeaderFieldNotANumber(0))
    else if |values| < 2 then Failure(MissingHeaderField(1))
    else if ParseLong(values[1]).None? then Failure(HeaderFieldNotANumber(1))
    else Success(Header(ParseLong(values[0]).value, ParseLong(values[1]).value))
  }

  /** A header line made of a single space has no fields: `split` drops both
      empty fields around the separator, so reading field 0 already fails. */
  lemma {:induction false} BlankHeaderHasNoFields()
    ensures Split(" ", Separator) == []
    ensures ParseHeader(" ") == Failure(MissingHeaderField(0))
  {
    assert IndexOf(" ", Separator) == 0;
    assert " "[1..] == "";
    assert Fields("", Separator) == [""];
    assert Fields(" ", Separator) == ["", ""];
    assert DropTrailingEmpty(["", ""][..1]) == [];
  }

  /** The header line written back for `h`. */
  function HeaderLine(h: Header): string {
    Join([ToString(h.numOfEntries), ToString(h.maxId)], Separator)
  }

  /** A written header reads back as the same header. */
  lemma {:induction false} ParseOfHeaderLine(h: Header)
    ensures ParseHeader(HeaderLine(h)) == Success(h)
  {
    var parts := [ToString(h.numOfEntries), ToString(h.maxId)];
    ToStringChars(h.numOfEntries);
    ToStringChars(h.maxId);
    assert Separator !in parts[0] && Separator !in parts[1];
    SplitOfJoin(parts, Separator);
    ParseOfToString(h.numOfEntries);
    ParseOfToString(h.maxId);
  }

  /** Opening a store reads its first line as the header; an empty file has
      none. */
  function Open(file: seq<string>): (r: Result<Header, OpenError>)
    ensures |file| == 0 <==> r == Failure(EmptyFile)
    ensures |file| > 0 ==> r == ParseHeader(file[0])
  {
    if |file| == 0 then Failure(EmptyFile) else ParseHeader(file[0])
  }

  /** A header line followed by anything opens to that header. */
  lemma {:induction false} OpenAfterWrite(h: Header, body: seq<string>)
    ensures Open([HeaderLine(h)] + body) == Success(h)
  {
    ParseOfHeaderLine(h);
  }

  /** Fields after the second one do not change what the header says. */
  lemma {:induction false} ExtraHeaderFieldsIgnored(h: Header, extra: string)
    requires extra != ""
    ensures ParseHeader(HeaderLine(h) + [Separator] + extra) == Success(h)
  {
    var a := ToString(h.numOfEntries);
    var b := ToString(h.maxId);
    ToStringChars(h.numOfEntries);
    ToStringChars(h.maxId);
    assert Separator !in a && Separator !in b;
    var line := HeaderLine(h) + [Separator] + extra;
    assert [a, b][1..] == [b];
    assert Join([b], Separator) == b;
    assert HeaderLine(h) == a + [Separator] + b;
    assert line == a + [Separator] + (b + [Separator] + extra);
    SplitFirst(a, Separator, b + [Separator] + extra);
    SplitFirst(b, Separator, extra);
    var fs := Fields(line, Separator);
    IndexOfAfterPrefix(a, Separator, b + [Separator] + extra);
    assert line[|a| + 1..] == b + [Separator] + extra;
    assert fs[1..] == Fields(b + [Separator] + extra, Separator);
    IndexOfAfterPrefix(b, Separator, extra);
    assert (b + [Separator] + extra)[..|b|] == b;
    assert fs[1] == b;
    DropTrailingEmptyDropsEmpty(fs);
    ParseOfToString(h.numOfEntries);
    ParseOfToString(h.maxId);
  }
}

=== FILE: java_long.dfy ===
/** Java's 64-bit `long`, `Long.parseLong` and `Long.toString`, as the store
    uses them for header counters and record ids. */
module JavaLong {
  import opened Results

  const MinLong: int := -0x8000_0000_0000_0000
  const MaxLong: int := 0x7fff_ffff_ffff_ffff

  /** A value of Java type `long`. */
  type Long = x: int | MinLong <= x <= MaxLong

  predicate IsDigit(c: char) {
    '0' <= c <= '9'
  }

  /** Every character of `s` is a decimal digit (checked from the end, the
      order `DigitsValue` reads them in). */
  predicate AllDigits(s: string)
    decreases |s|
  {
    |s| == 0 || (IsDigit(s[|s| - 1]) && AllDigits(s[..|s| - 1]))
  }

  lemma {:induction false} AllDigitsAt(s: string)
    ensures AllDigits(s) <==> forall i :: 0 <= i < |s| ==> IsDigit(s[i])
    decreases |s|
  {
    if |s| > 0 {
      var init := s[..|s| - 1];
      AllDigitsAt(init);
      assert forall i :: 0 <= i < |init| ==> init[i] == s[i];
    }
  }

  function DigitValue(c: char): (r: nat)
    requires IsDigit(c)
    ensures r < 10
  {
    (c as int) - ('0' as int)
  }

  function DigitChar(d: nat): (c: char)
    requires d < 10
    ensures IsDigit(c) && DigitValue(c) == d
  {
    (('0' as int) + d) as char
  }

  /** The number a string of decimal digits denotes, most significant first. */
  function DigitsValue(s: string): nat
    requires AllDigits(s)
    decreases |s|
  {
    if |s| == 0 then 0
    else DigitsValue(s[..|s| - 1]) * 10 + DigitValue(s[|s| - 1])
  }

  /** Decimal digits of `n` without leading zeros ("0" for zero). */
  function Decimal(n: nat): (r: string)
    ensures |r| >= 1 && IsDigit(r[0])
  {
    if n < 10 then [DigitChar(n)]
    else Decimal(n / 10) + [DigitChar(n % 10)]
  }

  /** The decimal digits of `n` are digits and denote `n`. */
  lemma {:induction false} DecimalValue(n: nat)
    ensures AllDigits(Decimal(n)) && DigitsValue(Decimal(n)) == n
  {
    if n >= 10 {
      var s := Decimal(n);
      DecimalValue(n / 10);
      assert s[..|s| - 1] == Decimal(n / 10);
    }
  }

  lemma {:induction false} AllDigitsFirst(s: string)
    requires |s| >= 1 && AllDigits(s)
    ensures IsDigit(s[0])
    decreases |s|
  {
    if |s| > 1 {
      AllDigitsFirst(s[..|s| - 1]);
    }
  }

  /** The value of a non-empty run of decimal digits, `None` for anything
      else: the digit loop inside `parseLong`. */
  function ParseDigits(s: string): (r: Option<nat>)
    ensures r.Some? <==> |s| >= 1 && AllDigits(s)
  {
    if |s| == 0 || !AllDigits(s) then None else Some(DigitsValue(s))
  }

  /** `Long.parseLong(s)`: an optional '+' or '-' followed by at least one
      decimal digit, whose value fits in a long; `None` stands for the
      `NumberFormatException` thrown otherwise. */
  function ParseLong(s: string): Option<Long> {
    if |s| == 0 then None
    else
      var signed := s[0] == '-' || s[0] == '+';
      var digits := if signed then s[1..] else s;
      match ParseDigits(digits)
      case None => None
      case Some(u) =>
        var v: int := if s[0] == '-' then 0 - u else u;
        if MinLong <= v <= MaxLong then Some(v) else None
  }

  /** What `parseLong` accepts: an optional sign, then digits whose value
      (negated after a '-') fits in a long; a plain run of digits denotes
      its decimal value, and the sign decides the sign of the result. */
  lemma {:induction false} ParseLongSpec(s: string)
    ensures ParseLong(s).Some? ==> |s| >= 1 && (s[0] == '-' || s[0] == '+' || IsDigit(s[0]))
    ensures |s| >= 1 && AllDigits(s) && DigitsValue(s) <= MaxLong ==> ParseLong(s) == Some(DigitsValue(s))
    ensures |s| >= 1 && AllDigits(s) && DigitsValue(s) > MaxLong ==> ParseLong(s).None?
    ensures ParseLong(s).Some? && s[0] == '-' ==> ParseLong(s).value <= 0
    ensures ParseLong(s).Some? && s[0] != '-' ==> ParseLong(s).value >= 0
    ensures ParseLong(s).Some? ==>
      (|s| >= 1 && AllDigits(s)) || (|s| >= 2 && (s[0] == '-' || s[0] == '+') && AllDigits(s[1..]))
    ensures |s| >= 2 && s[0] == '-' && AllDigits(s[1..]) ==>
      ParseLong(s) == (if DigitsValue(s[1..]) <= MaxLong + 1 then Some(0 - DigitsValue(s[1..])) else None)
    ensures |s| >= 2 && s[0] == '+' && AllDigits(s[1..]) ==>
      ParseLong(s) == (if DigitsValue(s[1..]) <= MaxLong then Some(DigitsValue(s[1..])) else None)
  {
    if |s| >= 1 {
      var signed := s[0] == '-' || s[0] == '+';
      var digits := if signed then s[1..] else s;
      if AllDigits(s) {
        AllDigitsFirst(s);
      }
      if ParseDigits(digits).Some? && !signed {
        AllDigitsFirst(s);
      }
    }
  }

  /** A string `parseLong` accepts is a sign or digit followed by digits. */
  lemma {:induction false} ParseLongForm(s: string)
    requires ParseLong(s).Some?
    ensures forall i :: 1 <= i < |s| ==> IsDigit(s[i])
  {
    var digits := if s[0] == '-' || s[0] == '+' then s[1..] else s;
    AllDigitsAt(digits);
    assert forall i :: 1 <= i < |s| ==> s[i] in digits;
  }

  /** `Long.toString(n)`: a '-' for negative values, then the decimal digits. */
  function ToString(n: Long): (r: string)
    ensures |r| >= 1
    ensures n < 0 <==> r[0] == '-'
  {
    if n < 0 then "-" + Decimal(-(n as int)) else Decimal(n)
  }

  /** The printed form is digits, after a '-' for negative values. */
  lemma {:induction false} ToStringChars(n: Long)
    ensures forall i :: 0 <= i < |ToString(n)| ==> IsDigit(ToString(n)[i]) || (i == 0 && ToString(n)[i] == '-')
    ensures forall c :: c in ToString(n) ==> IsDigit(c) || c == '-'
  {
    if n < 0 {
      DecimalValue(-(n as int));
      AllDigitsAt(Decimal(-(n as int)));
      assert ToString(n)[1..] == Decimal(-(n as int));
    } else {
      DecimalValue(n);
      AllDigitsAt(Decimal(n));
    }
  }

  /** Parsing a printed long gives the same long back. */
  lemma {:induction false} ParseOfToString(n: Long)
    ensures ParseLong(ToString(n)) == Some(n)
  {
    if n < 0 {
      ParseOfNegative(n);
    } else {
      DecimalValue(n);
    }
  }

  lemma {:induction false} ParseOfNegative(n: Long)
    requires n < 0
    ensures ParseLong(ToString(n)) == Some(n)
  {
    var d := Decimal(-(n as int));
    DecimalValue(-(n as int));
    var s := ToString(n);
    assert s[1..] == d;
    assert ParseDigits(s[1..]) == Some(-(n as int));
  }
}

=== FILE: java_string.dfy ===
/** `java.lang.String.split` and `String.join` for a one-character literal
    separator, as the bookmark store uses them with " " and ",". */
module JavaString {

  /** Position of the first `c` in `s`, or `|s|` when `s` has none. */
  function IndexOf(s: string, c: char): (r: nat)
    ensures r <= |s|
    ensures r < |s| ==> s[r] == c
  {
    if |s| == 0 then 0
    else if s[0] == c then 0
    else 1 + IndexOf(s[1..], c)
  }

  /** No `c` comes before the position `IndexOf` reports. */
  lemma {:induction false} IndexOfFirst(s: string, c: char)
    ensures c !in s[..IndexOf(s, c)]
    decreases |s|
  {
    if |s| > 0 && s[0] != c {
      IndexOfFirst(s[1..], c);
      var k := IndexOf(s[1..], c);
      assert s[..k + 1] == [s[0]] + s[1..][..k];
    }
  }

  /** The position of the separator that follows a separator-free prefix. */
  lemma {:induction false} IndexOfAfterPrefix(a: string, c: char, b: string)
    requires c !in a
    ensures IndexOf(a + [c] + b, c) == |a|
    decreases |a|
  {
    var s := a + [c] + b;
    if |a| == 0 {
      assert s[0] == c;
    } else {
      assert s[0] == a[0] != c;
      assert s[1..] == a[1..] + [c] + b;
      IndexOfAfterPrefix(a[1..], c, b);
    }
  }

  /** Concatenation of `parts` with `sep` between neighbours (`String.join`). */
  function Join(parts: seq<string>, sep: char): string
    decreases |parts|
  {
    if |parts| == 0 then ""
    else if |parts| == 1 then parts[0]
    else parts[0] + [sep] + Join(parts[1..], sep)
  }

  /** Every field of `s` between occurrences of `sep`, empty fields included:
      what `split` computes before it drops trailing empty fields. */
  function Fields(s: string, sep: char): seq<string>
    decreases |s|
  {
    var i := IndexOf(s, sep);
    if i == |s| then [s]
    else [s[..i]] + Fields(s[i + 1..], sep)
  }

  /** There is always at least one field, and joining the fields with the
      separator rebuilds the string. */
  lemma {:induction false} JoinOfFields(s: string, sep: char)
    ensures |Fields(s, sep)| >= 1
    ensures Join(Fields(s, sep), sep) == s
    decreases |s|
  {
    var i := IndexOf(s, sep);
    if i == |s| {
      assert s[..i] == s;
    } else {
      var rest := Fields(s[i + 1..], sep);
      JoinOfFields(s[i + 1..], sep);
      var r := [s[..i]] + rest;
      assert r[1..] == rest;
      assert s == s[..i] + [sep] + s[i + 1..];
    }
  }

  /** No field contains the separator. */
  lemma {:induction false} FieldsAvoidSep(s: string, sep: char)
    ensures forall i :: 0 <= i < |Fields(s, sep)| ==> sep !in Fields(s, sep)[i]
    decreases |s|
  {
    var i := IndexOf(s, sep);
    IndexOfFirst(s, sep);
    if i < |s| {
      FieldsAvoidSep(s[i + 1..], sep);
      var r := Fields(s, sep);
      assert r[1..] == Fields(s[i + 1..], sep);
    } else {
      assert s[..i] == s;
    }
  }

  /** `fs` without its trailing run of empty strings. */
  function DropTrailingEmpty(fs: seq<string>): (r: seq<string>)
    ensures |r| <= |fs| && r == fs[..|r|]
    ensures |r| > 0 ==> r[|r| - 1] != ""
    decreases |fs|
  {
    if |fs| == 0 then fs
    else if fs[|fs| - 1] != "" then fs
    else
      var r := DropTrailingEmpty(fs[..|fs| - 1]);
      assert fs[..|fs| - 1][..|r|] == fs[..|r|];
      r
  }

  /** Only empty strings are dropped. */
  lemma {:induction false} DropTrailingEmptyDropsEmpty(fs: seq<string>)
    ensures forall i :: |DropTrailingEmpty(fs)| <= i < |fs| ==> fs[i] == ""
    decreases |fs|
  {
    if |fs| > 0 && fs[|fs| - 1] == "" {
      DropTrailingEmptyDropsEmpty(fs[..|fs| - 1]);
    }
  }

  /** `s.split(sep)` with a literal one-character separator and limit 0:
      the fields between separators, trailing empty fields dropped, except
      that splitting the empty string yields the single field "". */
  function Split(s: string, sep: char): seq<string> {
    if s == "" then [""] else DropTrailingEmpty(Fields(s, sep))
  }

  /** Splitting "" gives [""]; otherwise the last field is never empty, and a
      string without the separator is its own single field. */
  lemma {:induction false} SplitShape(s: string, sep: char)
    ensures s == "" ==> Split(s, sep) == [""]
    ensures s != "" && |Split(s, sep)| > 0 ==> Split(s, sep)[|Split(s, sep)| - 1] != ""
    ensures s != "" && sep !in s ==> Split(s, sep) == [s]
  {
    if s != "" && sep !in s {
      assert IndexOf(s, sep) == |s|;
      assert s[..|s|] == s;
    }
  }

  /** No field `split` returns contains the separator. */
  lemma {:induction false} SplitAvoidsSep(s: string, sep: char)
    ensures forall i :: 0 <= i < |Split(s, sep)| ==> sep !in Split(s, sep)[i]
  {
    if s != "" {
      FieldsAvoidSep(s, sep);
      var fs := Fields(s, sep);
      var r := DropTrailingEmpty(fs);
      assert forall i :: 0 <= i < |r| ==> r[i] == fs[i];
    }
  }

  /** Splitting a joined list gives the list back when no part contains the
      separator. */
  lemma {:induction false} FieldsOfJoin(parts: seq<string>, sep: char)
    requires |parts| >= 1
    requires forall i :: 0 <= i < |parts| ==> sep !in parts[i]
    ensures Fields(Join(parts, sep), sep) == parts
    decreases |parts|
  {
    if |parts| == 1 {
      assert IndexOf(parts[0], sep) == |parts[0]|;
      assert parts[0][..|parts[0]|] == parts[0];
    } else {
      var rest := Join(parts[1..], sep);
      var s := parts[0] + [sep] + rest;
      IndexOfAfterPrefix(parts[0], sep, rest);
      assert s[..|parts[0]|] == parts[0];
      assert s[|parts[0]| + 1..] == rest;
      FieldsOfJoin(parts[1..], sep);
      assert parts == [parts[0]] + parts[1..];
    }
  }

  /** The round trip of `split` over `join`: it holds when no part contains
      the separator and the last part is non-empty (or the list is [""]),
      since `split` drops trailing empty fields. */
  lemma {:induction false} SplitOfJoin(parts: seq<string>, sep: char)
    requires |parts| >= 1
    requires forall i :: 0 <= i < |parts| ==> sep !in parts[i]
    requires parts[|parts| - 1] != "" || parts == [""]
    ensures Split(Join(parts, sep), sep) == parts
  {
    if parts != [""] {
      FieldsOfJoin(parts, sep);
      JoinNonEmpty(parts, sep);
    }
  }

  /** A join whose last part is non-empty is non-empty. */
  lemma {:induction false} JoinNonEmpty(parts: seq<string>, sep: char)
    requires |parts| >= 1 && parts[|parts| - 1] != ""
    ensures Join(parts, sep) != ""
    decreases |parts|
  {
    if |parts| > 1 {
      assert parts[1..][|parts[1..]| - 1] == parts[|parts| - 1];
      JoinNonEmpty(parts[1..], sep);
    }
  }

  /** `Join` of three parts, unfolded. */
  lemma {:induction false} JoinThree(a: string, b: string, c: string, sep: char)
    ensures Join([a, b, c], sep) == a + [sep] + (b + [sep] + c)
  {
    assert [a, b, c][1..] == [b, c];
    assert [b, c][1..] == [c];
    assert Join([c], sep) == c;
    assert Join([b, c], sep) == b + [sep] + c;
  }

  /** The first field of a line that starts with a non-empty,
      separator-free prefix is that prefix. */
  lemma {:induction false} SplitFirst(a: string, sep: char, b: string)
    requires a != "" && sep !in a
    ensures |Split(a + [sep] + b, sep)| >= 1
    ensures Split(a + [sep] + b, sep)[0] == a
  {
    var s := a + [sep] + b;
    IndexOfAfterPrefix(a, sep, b);
    assert s[..|a|] == a;
    var fs := Fields(s, sep);
    assert fs[0] == a;
    DropTrailingEmptyDropsEmpty(fs);
  }

  /** A join of parts free of `c` is free of `c` when `c` is not the
      separator. */
  lemma {:induction false} JoinAvoids(parts: seq<string>, sep: char, c: char)
    requires c != sep
    requires forall i :: 0 <= i < |parts| ==> c !in parts[i]
    ensures c !in Join(parts, sep)
    decreases |parts|
  {
    if |parts| > 1 {
      JoinAvoids(parts[1..], sep, c);
    }
  }
}

=== FILE: parser.dfy ===
/** The recursive-descent parser of bo_config/parser.c, which loads a
    configuration context from a token stream:

      PROGRAM        -> STATEMENT_LIST END_OF_FILE
      STATEMENT_LIST -> STATEMENT {STATEMENT}
      STATEMENT      -> KEYWORD ASSIGN_OP LITERAL END_OF_LINE

    Errors are reported on stderr and parsing carries on; the model collects
    the reports in order. Undefined behaviour (see `SemanticStack.Fault`)
    ends the model's run. */
module Parser {
  import opened Results
  import opened CStrings
  import opened Tokens
  import opened Contexts
  import opened SemanticStack

  /** A report written to stderr: a token that could not be matched, a
      "Stack full" from `push`, or a "Semantic Error: Invalid assignment". */
  datatype Diagnostic = ParseError(token: Token) | StackFull | InvalidAssignment

  /** The parser's globals: how many tokens `next_token` has consumed, the
      semantic stack, the context being loaded, and the reports so far. */
  datatype State = State(pos: nat, stack: Stack, context: Context, diagnostics: seq<Diagnostic>)

  /** `parse_error()`: report the current token. */
  function ReportParseError(ts: seq<Token>, st: State): State {
    st.(diagnostics := st.diagnostics + [ParseError(Current(ts, st.pos))])
  }

  /** `save(token)`: push onto the semantic stack. */
  function Save(st: State, t: Token): (r: State)
    requires Valid(st.stack)
    ensures Valid(r.stack) && r.pos == st.pos && r.context == st.context
    ensures st.diagnostics <= r.diagnostics
    ensures st.stack.top < Size ==>
      r.diagnostics == st.diagnostics && r.stack == Push(Some(st.stack), Some(t)).stack.value
    ensures st.stack.top >= Size ==> r.diagnostics == st.diagnostics + [StackFull] && r.stack == st.stack
  {
    var pushed := Push(Some(st.stack), Some(t));
    st.(stack := pushed.stack.value, diagnostics := st.diagnostics + (if pushed.full then [StackFull] else []))
  }

  /** `keyword()`: DB or URL_OPEN_CMD is saved and consumed; any other token
      is reported and left in place. */
  function Keyword(ts: seq<Token>, st: State): (r: State)
    requires Valid(st.stack)
    ensures Valid(r.stack) && r.context == st.context && st.diagnostics <= r.diagnostics
    ensures r.pos == st.pos + 1 <==> IsKeyword(Current(ts, st.pos).kind)
    ensures IsKeyword(Current(ts, st.pos).kind) ==> r == Save(st, Current(ts, st.pos)).(pos := st.pos + 1)
    ensures !IsKeyword(Current(ts, st.pos).kind) ==>
      r.pos == st.pos && r.stack == st.stack && r.diagnostics == st.diagnostics + [ParseError(Current(ts, st.pos))]
  {
    var t := Current(ts, st.pos);
    if IsKeyword(t.kind) then Save(st, t).(pos := st.pos + 1)
    else ReportParseError(ts, st)
  }

  /** `assign_op()`: consumes one EQUALS or SPACE, or reports the token and
      leaves it in place. */
  function AssignOp(ts: seq<Token>, st: State): (r: State)
    ensures r.stack == st.stack && r.context == st.context && st.diagnostics <= r.diagnostics
    ensures r.pos == st.pos + 1 <==> IsAssignOp(Current(ts, st.pos).kind)
    ensures IsAssignOp(Current(ts, st.pos).kind) ==> r.diagnostics == st.diagnostics
    ensures !IsAssignOp(Current(ts, st.pos).kind) ==>
      r.pos == st.pos && r.diagnostics == st.diagnostics + [ParseError(Current(ts, st.pos))]
  {
    if IsAssignOp(Current(ts, st.pos).kind) then st.(pos := st.pos + 1)
    else ReportParseError(ts, st)
  }

  /** `literal()`: an INT, STRING or PATH literal is saved and consumed; any
      other token is reported and left in place. */
  function Literal(ts: seq<Token>, st: State): (r: State)
    requires Valid(st.stack)
    ensures Valid(r.stack) && r.context == st.context && st.diagnostics <= r.diagnostics
    ensures r.pos == st.pos + 1 <==> IsLiteral(Current(ts, st.pos).kind)
    ensures IsLiteral(Current(ts, st.pos).kind) ==> r == Save(st, Current(ts, st.pos)).(pos := st.pos + 1)
    ensures !IsLiteral(Current(ts, st.pos).kind) ==>
      r.pos == st.pos && r.stack == st.stack && r.diagnostics == st.diagnostics + [ParseError(Current(ts, st.pos))]
  {
    var t := Current(ts, st.pos);
    if IsLiteral(t.kind) then Save(st, t).(pos := st.pos + 1)
    else ReportParseError(ts, st)
  }

  /** `statement()`: keyword, assignment operator and literal; a report
      unless END_OF_LINE follows; a report if the pair on the stack is not a
      valid assignment; then the assignment is performed regardless and one
      more token is consumed. */
  function Statement(ts: seq<Token>, st: State): (r: Result<State, Fault>)
    requires Valid(st.stack)
    ensures r.Success? ==> Valid(r.value.stack) && r.value.stack.top == 0
    ensures r.Success? ==> r.value.pos > st.pos && st.diagnostics <= r.value.diagnostics
  {
    var read := Literal(ts, AssignOp(ts, Keyword(ts, st)));
    var ended := if Current(ts, read.pos).kind != EndOfLine then ReportParseError(ts, read) else read;
    match ValidAssignment(ended.stack)
    case Failure(f) => Failure(f)
    case Success(valid) =>
      var checked := if valid then ended else ended.(diagnostics := ended.diagnostics + [InvalidAssignment]);
      match PerformAssignment(checked.context, checked.stack)
      case Failure(f) => Failure(f)
      case Success((c, s)) => Success(checked.(context := c, stack := s, pos := checked.pos + 1))
  }

  /** The `while` loop of `statement_list()`: one more statement as long as
      the current token is DB or URL_OPEN_CMD. */
  function StatementLoop(ts: seq<Token>, st: State): (r: Result<State, Fault>)
    requires Valid(st.stack)
    ensures r.Success? ==> Valid(r.value.stack) && r.value.pos >= st.pos && st.diagnostics <= r.value.diagnostics
    ensures r.Success? ==> !IsKeyword(Current(ts, r.value.pos).kind)
    ensures r.Success? && st.stack.top == 0 ==> r.value.stack.top == 0
    decreases |ts| - st.pos, 1
  {
    if !IsKeyword(Current(ts, st.pos).kind) then Success(st) else LoopTurn(ts, st)
  }

  /** One turn of that loop: a statement, then the loop again. */
  function LoopTurn(ts: seq<Token>, st: State): (r: Result<State, Fault>)
    requires Valid(st.stack) && IsKeyword(Current(ts, st.pos).kind)
    ensures r.Success? ==> Valid(r.value.stack) && r.value.pos > st.pos && st.diagnostics <= r.value.diagnostics
    ensures r.Success? ==> !IsKeyword(Current(ts, r.value.pos).kind)
    ensures r.Success? && st.stack.top == 0 ==> r.value.stack.top == 0
    decreases |ts| - st.pos, 0
  {
    match Statement(ts, st)
    case Failure(f) => Failure(f)
    case Success(next) => StatementLoop(ts, next)
  }

  /** `statement_list()`: one statement, then the loop. */
  function StatementList(ts: seq<Token>, st: State): (r: Result<State, Fault>)
    requires Valid(st.stack)
    ensures r.Success? ==> Valid(r.value.stack) && r.value.pos > st.pos && st.diagnostics <= r.value.diagnostics
  {
    match Statement(ts, st)
    case Failure(f) => Failure(f)
    case Success(next) => StatementLoop(ts, next)
  }

  /** `program()`: the statement list, a report unless END_OF_FILE follows,
      and one more token consumed. */
  function Program(ts: seq<Token>, st: State): (r: Result<State, Fault>)
    requires Valid(st.stack)
    ensures r.Success? <==> StatementList(ts, st).Success?
    ensures r.Success? ==> r.value.pos > st.pos + 1 && st.diagnostics <= r.value.diagnostics
    ensures r.Success? ==>
      var listed := StatementList(ts, st).value;
      && r.value.pos == listed.pos + 1
      && r.value.context == listed.context
      && r.value.stack == listed.stack
      && (Current(ts, listed.pos).kind == EndOfFile ==> r.value.diagnostics == listed.diagnostics)
      && (Current(ts, listed.pos).kind != EndOfFile ==>
            r.value.diagnostics == listed.diagnostics + [ParseError(Current(ts, listed.pos))])
  {
    match StatementList(ts, st)
    case Failure(f) => Failure(f)
    case Success(listed) =>
      var ended := if Current(ts, listed.pos).kind != EndOfFile then ReportParseError(ts, listed) else listed;
      Success(ended.(pos := ended.pos + 1))
  }

  /** What `load_context` leaves behind: its return code, the context and
      the reports written while parsing. */
  datatype Loaded = Loaded(status: int, context: Option<Context>, diagnostics: seq<Diagnostic>)

  /** `load_context(context, file)`: 0 for a NULL context or file; otherwise
      the whole program is parsed into the context from a new semantic
      stack and 1 is returned, whatever was reported on the way. */
  function LoadContext(c: Option<Context>, file: Option<seq<Token>>): (r: Result<Loaded, Fault>)
    ensures c.None? || file.None? ==> r == Success(Loaded(0, c, []))
    ensures c.Some? && file.Some? && r.Success? ==> r.value.status == 1 && r.value.context.Some?
  {
    if c.None? || file.None? then Success(Loaded(0, c, []))
    else
      match Program(file.value, State(0, StackMalloc(), c.value, []))
      case Failure(f) => Failure(f)
      case Success(st) => Success(Loaded(1, Some(st.context), st.diagnostics))
  }

  /** The first `n` statements all pair their keyword with a literal
      `valid_assignment` accepts. */
  predicate PairsValid(ts: seq<Token>, n: nat)
    requires 4 * n <= |ts|
    decreases n
  {
    n == 0 || (PairsValid(ts, n - 1) && ValidPair(ts[4 * (n - 1)].kind, ts[4 * (n - 1) + 2].kind))
  }

  /** The value attribute `k` holds after the first `n` statements, read off
      the tokens: the literal of the last statement for `k` whose literal is
      a non-empty C string (an empty one is refused by the setter), or
      `initial` when there is none. */
  function Latest(ts: seq<Token>, n: nat, k: TokenType, initial: Option<seq<char>>): Option<seq<char>>
    requires 4 * n <= |ts|
    decreases n
  {
    if n == 0 then initial
    else
      var i := 4 * (n - 1);
      if ts[i].kind == k && CLength(ts[i + 2].content) > 0 then Some(CString(ts[i + 2].content))
      else Latest(ts, n - 1, k, initial)
  }

  /** The context the first `n` statements should leave, starting from `c`:
      each attribute holds its latest value; a context without a values
      array is left alone. */
  function Expected(c: Context, ts: seq<Token>, n: nat): Context
    requires 4 * n <= |ts|
  {
    match c.values
    case None => c
    case Some(v) => Context(Some(Values(Latest(ts, n, Db, v.db), Latest(ts, n, UrlOpenCmd, v.urlOpenCmd))))
  }

  /** The context a statement pairing a `keyword` of type DB or
      URL_OPEN_CMD with a literal of text `literal` should leave: the
      keyword's attribute holds the literal's characters, unless the literal
      is an empty C string (the setter refuses length 0) or there is no
      values array. */
  function Assign(cur: Context, keyword: TokenType, literal: string): Context {
    match cur.values
    case None => cur
    case Some(v) =>
      if CLength(literal) == 0 then cur
      else if keyword == Db then Context(Some(v.(db := Some(CString(literal)))))
      else Context(Some(v.(urlOpenCmd := Some(CString(literal)))))
  }

  /** The context statements `j` to `n - 1` should leave, applied in order
      to `cur`. */
  function Applied(cur: Context, ts: seq<Token>, j: nat, n: nat): Context
    requires j <= n && 4 * n <= |ts|
    decreases n - j
  {
    if j == n then cur
    else Applied(Assign(cur, ts[4 * j].kind, ts[4 * j + 2].content), ts, j + 1, n)
  }

  /** The keyword, assignment operator and literal of a well-formed
      statement, read on an empty stack, are consumed without a report and
      leave the keyword and the literal in slots 0 and 1. */
  lemma {:induction false} StatementReadsPair(ts: seq<Token>, st: State)
    requires StatementAt(ts, st.pos) && Valid(st.stack) && st.stack.top == 0
    ensures
      var read := Literal(ts, AssignOp(ts, Keyword(ts, st)));
      && read.pos == st.pos + 3 && read.diagnostics == st.diagnostics && read.context == st.context
      && read.stack.top == 2 && read.stack.data == [Written(ts[st.pos]), Written(ts[st.pos + 2])]
  {
  }

  /** With `pop` as written, every well-formed statement read on an empty
      stack ends in a fault: it fills both slots, and the `empty` inside
      `perform_assignment` then reads past the end of `data`. */
  lemma {:induction false} StatementEmptiesPastEnd(ts: seq<Token>, st: State)
    requires StatementAt(ts, st.pos) && Valid(st.stack) && st.stack.top == 0
    ensures
      var read := Literal(ts, AssignOp(ts, Keyword(ts, st)));
      read.stack.top == Size && EmptyAsWritten(read.stack) == Failure(OutOfBoundsRead)
  {
    StatementReadsPair(ts, st);
    EmptyFullStack(Literal(ts, AssignOp(ts, Keyword(ts, st))).stack);
  }

  /** `perform_assignment` on a keyword and a literal does what `Assign`
      says. */
  lemma {:induction false} AssignmentStep(c: Context, s: Stack, keyword: Token, literal: Token)
    requires Valid(s) && s.data == [Written(keyword), Written(literal)] && IsKeyword(keyword.kind)
    ensures PerformAssignment(c, s).Success?
    ensures PerformAssignment(c, s).value.0 == Assign(c, keyword.kind, literal.content)
  {
    var r := PerformAssignment(c, s).value.0;
    var e := Assign(c, keyword.kind, literal.content);
    if c.values.Some? && CLength(literal.content) > 0 {
      if keyword.kind == Db {
        assert GetDb(r) == GetDb(e) && GetUrlOpenCmd(r) == GetUrlOpenCmd(e);
      } else {
        assert GetDb(r) == GetDb(e) && GetUrlOpenCmd(r) == GetUrlOpenCmd(e);
      }
      ContextsEqual(r, e);
    }
  }

  /** A well-formed statement with a valid pair, started on an empty stack,
      consumes its four tokens, reports nothing and performs its assignment. */
  lemma {:induction false} StatementOfValid(ts: seq<Token>, st: State) returns (next: State)
    requires StatementAt(ts, st.pos) && ValidPair(ts[st.pos].kind, ts[st.pos + 2].kind)
    requires Valid(st.stack) && st.stack.top == 0
    ensures Statement(ts, st) == Success(next)
    ensures next.pos == st.pos + 4 && next.diagnostics == st.diagnostics
    ensures Valid(next.stack) && next.stack.top == 0
    ensures next.context == Assign(st.context, ts[st.pos].kind, ts[st.pos + 2].content)
  {
    StatementReadsPair(ts, st);
    var read := Literal(ts, AssignOp(ts, Keyword(ts, st)));
    AssignmentStep(st.context, read.stack, ts[st.pos], ts[st.pos + 2]);
    assert ValidAssignment(read.stack) == Success(true);
    next := Statement(ts, st).value;
  }

  /** A well-formed statement whose pair is not a valid assignment, started
      on an empty stack, consumes its four tokens, adds exactly the
      "Invalid assignment" report, and still performs the assignment. */
  lemma {:induction false} StatementOfInvalid(ts: seq<Token>, st: State) returns (next: State)
    requires StatementAt(ts, st.pos) && !ValidPair(ts[st.pos].kind, ts[st.pos + 2].kind)
    requires Valid(st.stack) && st.stack.top == 0
    ensures Statement(ts, st) == Success(next)
    ensures next.pos == st.pos + 4 && next.diagnostics == st.diagnostics + [InvalidAssignment]
    ensures Valid(next.stack) && next.stack.top == 0
    ensures next.context == Assign(st.context, ts[st.pos].kind, ts[st.pos + 2].content)
  {
    StatementReadsPair(ts, st);
    var read := Literal(ts, AssignOp(ts, Keyword(ts, st)));
    AssignmentStep(st.context, read.stack, ts[st.pos], ts[st.pos + 2]);
    assert ValidAssignment(read.stack) == Success(false);
    next := Statement(ts, st).value;
  }

  /** Statements `j` to `n - 1` are all well formed with a valid pair. */
  predicate ValidFrom(ts: seq<Token>, j: nat, n: nat)
    requires j <= n
    decreases n - j
  {
    j == n || (StatementAt(ts, 4 * j) && ValidPair(ts[4 * j].kind, ts[4 * j + 2].kind) && ValidFrom(ts, j + 1, n))
  }

  lemma {:induction false} ValidFromPairs(ts: seq<Token>, n: nat, j: nat)
    requires Statements(ts, n) && PairsValid(ts, n) && j <= n
    ensures ValidFrom(ts, j, n)
    decreases n - j
  {
    if j < n {
      StatementsAt(ts, n, j);
      PairsValidAt(ts, n, j);
      ValidFromPairs(ts, n, j + 1);
    }
  }

  /** The loop of `statement_list`, entered in state `st`, finishes in
      state `final`. */
  predicate LoopEnds(ts: seq<Token>, st: State, final: State) {
    Valid(st.stack) && StatementLoop(ts, st) == Success(final)
  }

  /** From statement `j` of a grammatical program on, the loop of
      `statement_list` consumes the remaining statements without a report
      and applies their assignments in order. */
  lemma {:induction false} LoopOfValid(ts: seq<Token>, n: nat, j: nat, st: State) returns (final: State)
    requires 4 * n <= |ts| && j <= n && ValidFrom(ts, j, n) && !IsKeyword(Current(ts, 4 * n).kind)
    requires st.pos == 4 * j && Valid(st.stack) && st.stack.top == 0
    ensures LoopEnds(ts, st, final)
    ensures final.pos == 4 * n && final.diagnostics == st.diagnostics
    ensures final.context == Applied(st.context, ts, j, n)
    decreases n - j
  {
    if j < n {
      var next := TurnOfValid(ts, st);
      final := LoopOfValid(ts, n, j + 1, next);
    } else {
      final := st;
    }
  }

  /** A well-formed statement with a valid pair at the current token runs
      as one turn of the loop and hands over to the next turn. */
  lemma {:induction false} TurnOfValid(ts: seq<Token>, st: State) returns (next: State)
    requires StatementAt(ts, st.pos) && ValidPair(ts[st.pos].kind, ts[st.pos + 2].kind)
    requires Valid(st.stack) && st.stack.top == 0
    ensures Valid(next.stack) && next.stack.top == 0
    ensures forall final :: LoopEnds(ts, next, final) ==> LoopEnds(ts, st, final)
    ensures next.pos == st.pos + 4 && next.diagnostics == st.diagnostics
    ensures next.context == Assign(st.context, ts[st.pos].kind, ts[st.pos + 2].content)
  {
    next := StatementOfValid(ts, st);
    assert StatementLoop(ts, st) == LoopTurn(ts, st) == StatementLoop(ts, next);
  }

  lemma {:induction false} PairsValidAt(ts: seq<Token>, n: nat, j: nat)
    requires 4 * n <= |ts| && PairsValid(ts, n) && j < n
    ensures ValidPair(ts[4 * j].kind, ts[4 * j + 2].kind)
    decreases n
  {
    if j < n - 1 {
      PairsValidAt(ts, n - 1, j);
    }
  }

  /** One more statement moves the latest values exactly as `Assign` does. */
  lemma {:induction false} ExpectedStep(c: Context, ts: seq<Token>, j: nat)
    requires Statements(ts, j + 1)
    ensures Expected(c, ts, j + 1) == Assign(Expected(c, ts, j), ts[4 * j].kind, ts[4 * j + 2].content)
  {
    var e := Expected(c, ts, j + 1);
    var a := Assign(Expected(c, ts, j), ts[4 * j].kind, ts[4 * j + 2].content);
    if c.values.Some? {
      assert GetDb(e) == GetDb(a) && GetUrlOpenCmd(e) == GetUrlOpenCmd(a);
      ContextsEqual(e, a);
    }
  }

  /** Applying the statements in order gives every attribute its latest
      value: the last write wins. */
  lemma {:induction false} AppliedIsLatest(c: Context, ts: seq<Token>, j: nat, n: nat)
    requires Statements(ts, n) && j <= n
    ensures Applied(Expected(c, ts, j), ts, j, n) == Expected(c, ts, n)
    decreases n - j
  {
    if j < n {
      StatementsPrefix(ts, n, j + 1);
      ExpectedStep(c, ts, j);
      AppliedIsLatest(c, ts, j + 1, n);
    }
  }

  /** The statement list of a grammatical program whose pairs are all
      valid, started on a fresh stack, consumes every statement without a
      report and leaves each attribute holding its latest value. */
  lemma {:induction false} ListOfValid(c: Context, ts: seq<Token>, n: nat) returns (final: State)
    requires Grammatical(ts, n) && PairsValid(ts, n)
    ensures StatementList(ts, State(0, StackMalloc(), c, [])) == Success(final)
    ensures final.pos == 4 * n && final.diagnostics == [] && final.context == Expected(c, ts, n)
  {
    var st := State(0, StackMalloc(), c, []);
    StatementsAt(ts, n, 0);
    PairsValidAt(ts, n, 0);
    var next := StatementOfValid(ts, st);
    ValidFromPairs(ts, n, 1);
    final := LoopOfValid(ts, n, 1, next);
    assert StatementList(ts, st) == StatementLoop(ts, next);
    AppliedAfterFirst(c, ts, n);
  }

  /** Applying statements 1 to `n - 1` after the first gives the latest
      values of all `n`. */
  lemma {:induction false} AppliedAfterFirst(c: Context, ts: seq<Token>, n: nat)
    requires Statements(ts, n) && n >= 1
    ensures Applied(Assign(c, ts[0].kind, ts[2].content), ts, 1, n) == Expected(c, ts, n)
  {
    assert Expected(c, ts, 0) == c;
    StatementsPrefix(ts, n, 1);
    ExpectedStep(c, ts, 0);
    AppliedIsLatest(c, ts, 1, n);
  }

  /** A grammatical program whose pairs are all valid loads with status 1,
      no report at all, and every attribute holding the literal of the last
      statement that set it (the last write wins). */
  lemma {:induction false} LoadGrammatical(c: Context, ts: seq<Token>, n: nat)
    requires Grammatical(ts, n) && PairsValid(ts, n)
    ensures LoadContext(Some(c), Some(ts)) == Success(Loaded(1, Some(Expected(c, ts, n)), []))
  {
    var final := ListOfValid(c, ts, n);
  }

  /** Statements `j` to `n - 1` valid means statements `j` to `n - 2`
      valid and the last one too. */
  lemma {:induction false} ValidFromLast(ts: seq<Token>, j: nat, n: nat)
    requires j < n && ValidFrom(ts, j, n)
    ensures ValidFrom(ts, j, n - 1)
    ensures StatementAt(ts, 4 * (n - 1)) && ValidPair(ts[4 * (n - 1)].kind, ts[4 * (n - 1) + 2].kind)
    decreases n - j
  {
    if j < n - 1 {
      ValidFromLast(ts, j + 1, n);
    }
  }

  /** The converse of `ValidFromPairs` for the whole program. */
  lemma {:induction false} PairsOfValidFrom(ts: seq<Token>, n: nat)
    requires 4 * n <= |ts| && ValidFrom(ts, 0, n)
    ensures Statements(ts, n) && PairsValid(ts, n)
    decreases n
  {
    if n > 0 {
      ValidFromLast(ts, 0, n);
      PairsOfValidFrom(ts, n - 1);
    }
  }

  /** A statement started on an empty stack that adds no report read a
      well-formed statement with a valid pair and consumed its four
      tokens: every deviation is reported. */
  lemma {:induction false} StatementClean(ts: seq<Token>, st: State)
    requires Valid(st.stack) && st.stack.top == 0
    requires Statement(ts, st).Success? && Statement(ts, st).value.diagnostics == st.diagnostics
    ensures StatementAt(ts, st.pos) && ValidPair(ts[st.pos].kind, ts[st.pos + 2].kind)
    ensures Statement(ts, st).value.pos == st.pos + 4
  {
    var k := Keyword(ts, st);
    var a := AssignOp(ts, k);
    var read := Literal(ts, a);
    var ended := if Current(ts, read.pos).kind != EndOfLine then ReportParseError(ts, read) else read;
    var valid := ValidAssignment(ended.stack).value;
    var checked := if valid then ended else ended.(diagnostics := ended.diagnostics + [InvalidAssignment]);
    assert Statement(ts, st).value.diagnostics == checked.diagnostics;
    assert |st.diagnostics| <= |k.diagnostics| <= |a.diagnostics| <= |read.diagnostics| <= |ended.diagnostics| <= |checked.diagnostics|;
    assert IsKeyword(Current(ts, st.pos).kind);
    assert IsAssignOp(Current(ts, st.pos + 1).kind);
    assert IsLiteral(Current(ts, st.pos + 2).kind);
    assert Current(ts, st.pos + 3).kind == EndOfLine;
    assert valid;
  }

  /** From statement `j` on, a loop that adds no report went over
      well-formed statements with valid pairs up to some statement `n`, and
      stopped there. */
  lemma {:induction false} LoopClean(ts: seq<Token>, j: nat, st: State, final: State) returns (n: nat)
    requires 4 * j <= |ts| && st.pos == 4 * j && st.stack.top == 0
    requires LoopEnds(ts, st, final) && final.diagnostics == st.diagnostics
    ensures j <= n && 4 * n <= |ts| && ValidFrom(ts, j, n)
    ensures final.pos == 4 * n
    decreases |ts| - st.pos
  {
    if !IsKeyword(Current(ts, st.pos).kind) {
      n := j;
    } else {
      var next := TurnClean(ts, st, final);
      n := LoopClean(ts, j + 1, next, final);
    }
  }

  /** A turn of the loop that adds no report ran a well-formed statement
      with a valid pair and handed over to the next turn. */
  lemma {:induction false} TurnClean(ts: seq<Token>, st: State, final: State) returns (next: State)
    requires st.stack.top == 0 && IsKeyword(Current(ts, st.pos).kind)
    requires LoopEnds(ts, st, final) && final.diagnostics == st.diagnostics
    ensures StatementAt(ts, st.pos) && ValidPair(ts[st.pos].kind, ts[st.pos + 2].kind)
    ensures LoopEnds(ts, next, final) && next.stack.top == 0
    ensures next.pos == st.pos + 4 && next.diagnostics == st.diagnostics
  {
    next := TurnSplit(ts, st, final);
    assert |st.diagnostics| <= |next.diagnostics| <= |final.diagnostics|;
    StatementClean(ts, st);
  }

  /** A turn of the loop is one statement followed by the rest of the
      loop. */
  lemma {:induction false} TurnSplit(ts: seq<Token>, st: State, final: State) returns (next: State)
    requires IsKeyword(Current(ts, st.pos).kind) && LoopEnds(ts, st, final)
    ensures Statement(ts, st) == Success(next) && LoopEnds(ts, next, final)
  {
    assert StatementLoop(ts, st) == LoopTurn(ts, st);
    next := Statement(ts, st).value;
    assert LoopTurn(ts, st) == StatementLoop(ts, next);
  }

  /** The statement list of a load that adds no report consists of `n >= 1`
      well-formed statements with valid pairs. */
  lemma {:induction false} ListClean(c: Context, ts: seq<Token>) returns (n: nat)
    requires StatementList(ts, State(0, StackMalloc(), c, [])).Success?
    requires StatementList(ts, State(0, StackMalloc(), c, [])).value.diagnostics == []
    ensures 1 <= n && 4 * n <= |ts| && ValidFrom(ts, 0, n)
    ensures StatementList(ts, State(0, StackMalloc(), c, [])).value.pos == 4 * n
  {
    var st := State(0, StackMalloc(), c, []);
    var next := Statement(ts, st).value;
    assert StatementList(ts, st) == StatementLoop(ts, next);
    StatementClean(ts, st);
    n := LoopClean(ts, 1, next, StatementList(ts, st).value);
  }

  /** A load that reports nothing was given a grammatical program whose
      pairs are all valid: with `LoadGrammatical`, the reports are empty
      exactly for those programs. */
  lemma {:induction false} CleanLoadIsGrammatical(c: Context, ts: seq<Token>) returns (n: nat)
    requires LoadContext(Some(c), Some(ts)).Success? && LoadContext(Some(c), Some(ts)).value.diagnostics == []
    ensures Grammatical(ts, n) && PairsValid(ts, n)
  {
    var st := State(0, StackMalloc(), c, []);
    var listed := StatementList(ts, st).value;
    assert |listed.diagnostics| <= |Program(ts, st).value.diagnostics|;
    n := ListClean(c, ts);
    PairsOfValidFrom(ts, n);
  }

  /** A statement started on an empty stack never reports "Stack full":
      it pushes at most a keyword and a literal onto the two slots. */
  lemma {:induction false} StatementNeverFull(ts: seq<Token>, st: State)
    requires Valid(st.stack) && st.stack.top == 0 && Statement(ts, st).Success?
    ensures StackFull !in st.diagnostics ==> StackFull !in Statement(ts, st).value.diagnostics
  {
    var k := Keyword(ts, st);
    var a := AssignOp(ts, k);
    var read := Literal(ts, a);
    var ended := if Current(ts, read.pos).kind != EndOfLine then ReportParseError(ts, read) else read;
    var valid := ValidAssignment(ended.stack).value;
    var checked := if valid then ended else ended.(diagnostics := ended.diagnostics + [InvalidAssignment]);
    assert Statement(ts, st).value.diagnostics == checked.diagnostics;
    assert k.stack.top <= 1 && a.stack.top <= 1;
    if StackFull !in st.diagnostics {
      assert StackFull !in k.diagnostics;
      assert StackFull !in a.diagnostics;
      assert StackFull !in read.diagnostics;
      assert StackFull !in ended.diagnostics;
    }
  }

  /** The loop keeps "Stack full" out of the reports. */
  lemma {:induction false} LoopNeverFull(ts: seq<Token>, st: State, final: State)
    requires LoopEnds(ts, st, final) && st.stack.top == 0 && StackFull !in st.diagnostics
    ensures StackFull !in final.diagnostics
    decreases |ts| - st.pos
  {
    if IsKeyword(Current(ts, st.pos).kind) {
      var next := TurnSplit(ts, st, final);
      StatementNeverFull(ts, st);
      LoopNeverFull(ts, next, final);
    }
  }

  /** Loading a context never reports "Stack full": the capacity check of
      `push` is never reached by the parser. */
  lemma {:induction false} LoadNeverFull(c: Context, ts: seq<Token>)
    requires LoadContext(Some(c), Some(ts)).Success?
    ensures StackFull !in LoadContext(Some(c), Some(ts)).value.diagnostics
  {
    var st := State(0, StackMalloc(), c, []);
    var next := Statement(ts, st).value;
    StatementNeverFull(ts, st);
    assert StatementList(ts, st) == StatementLoop(ts, next);
    LoopNeverFull(ts, next, StatementList(ts, st).value);
  }

  /** A statement without its keyword on a new stack reads a slot that was
      never written: `valid_assignment` reads slot 0, or, when the literal
      landed there, `perform_assignment` reads slot 1. */
  lemma {:induction false} StatementWithoutKeyword(ts: seq<Token>, st: State)
    requires st.stack == StackMalloc() && !IsKeyword(Current(ts, st.pos).kind)
    ensures Statement(ts, st) == Failure(UninitialisedRead)
  {
    var k := Keyword(ts, st);
    assert k.stack == st.stack;
  }

  /** So a program whose first token is not DB or URL_OPEN_CMD makes
      `load_context` undefined. */
  lemma {:induction false} LoadWithoutFirstKeyword(c: Context, ts: seq<Token>)
    requires !IsKeyword(Current(ts, 0).kind)
    ensures LoadContext(Some(c), Some(ts)) == Failure(UninitialisedRead)
  {
    StatementWithoutKeyword(ts, State(0, StackMalloc(), c, []));
  }

  /** A later statement whose literal is missing ("url_open_cmd =" and the
      end of the line) is reported, and still assigns: slot 1 keeps the
      literal of the previous statement, since `empty` only moves `top`, and
      that literal is handed to the new keyword's setter. */
  lemma {:induction false} MissingLiteralReusesPrevious(ts: seq<Token>, st: State, previous: Token)
    requires Valid(st.stack) && st.stack.top == 0 && st.stack.data[1] == Written(previous)
    requires st.pos + 3 <= |ts| && IsKeyword(ts[st.pos].kind) && IsAssignOp(ts[st.pos + 1].kind)
    requires ts[st.pos + 2].kind == EndOfLine
    ensures Statement(ts, st).Success?
    ensures ParseError(ts[st.pos + 2]) in Statement(ts, st).value.diagnostics
    ensures Statement(ts, st).value.context == Assign(st.context, ts[st.pos].kind, previous.content)
    ensures Statement(ts, st).value.pos == st.pos + 3
  {
    var read := Literal(ts, AssignOp(ts, Keyword(ts, st)));
    assert read.stack.top == 1 && read.stack.data == [Written(ts[st.pos]), Written(previous)];
    assert read.diagnostics == st.diagnostics + [ParseError(ts[st.pos + 2])];
    AssignmentStep(st.context, read.stack, ts[st.pos], previous);
  }
}

=== FILE: record.dfy ===
/** One entry line of the store, "ID URL TAGS": fields separated by a single
    space, tags separated by commas (kj.bo.database.FileDatabase). */
module Records {
  import opened Results
  import opened JavaLong
  import opened JavaString

  const Separator: char := ' '
  const TagSeparator: char := ','

  /** The fields of an entry, in line order: the ordinal is the field index. */
  datatype Field = Id | Url | Tags

  function Ordinal(f: Field): nat {
    match f
    case Id => 0
    case Url => 1
    case Tags => 2
  }

  /** What `getField` hands back: a parsed id, the url, the split tags, or the
      raw line itself when the id field is not a number. */
  datatype FieldValue =
    | IdValue(id: Long)
    | UrlValue(url: string)
    | TagsValue(tags: seq<string>)
    | RawLine(line: string)

  /** `getField(field, line)`. `None` stands for the
      ArrayIndexOutOfBoundsException that escapes when the line has too few
      fields; a non-numeric id is caught and answered with the raw line. */
  function GetField(f: Field, line: string): Option<FieldValue> {
    var values := Split(line, Separator);
    if |values| <= Ordinal(f) then None
    else
      var value := values[Ordinal(f)];
      match f
      case Id =>
        (match ParseLong(value)
         case Some(id) => Some(IdValue(id))
         case None => Some(RawLine(line)))
      case Url => Some(UrlValue(value))
      case Tags => Some(TagsValue(Split(value, TagSeparator)))
  }

  /** The field is missing exactly when the line has too few fields; a
      present field has the variant of its kind, and the id field falls
      back to the raw line exactly when its text is not a long. */
  lemma {:induction false} GetFieldShape(f: Field, line: string)
    ensures GetField(f, line).None? <==> |Split(line, Separator)| <= Ordinal(f)
    ensures GetField(f, line).Some? && f == Id ==>
      GetField(f, line).value.IdValue? || GetField(f, line).value == RawLine(line)
    ensures GetField(f, line).Some? && f == Url ==> GetField(f, line).value.UrlValue?
    ensures GetField(f, line).Some? && f == Tags ==> GetField(f, line).value.TagsValue?
    ensures GetField(f, line).Some? && f == Id ==>
      (GetField(f, line).value.IdValue? <==> ParseLong(Split(line, Separator)[0]).Some?)
  {
  }

  /** A url read from a line holds no space, and no tag read from a line
      holds a comma. */
  lemma {:induction false} GetFieldAvoidsSeparators(line: string)
    ensures GetField(Url, line).Some? ==> Separator !in GetField(Url, line).value.url
    ensures GetField(Tags, line).Some? ==>
      forall i :: 0 <= i < |GetField(Tags, line).value.tags| ==> TagSeparator !in GetField(Tags, line).value.tags[i]
  {
    var values := Split(line, Separator);
    SplitAvoidsSep(line, Separator);
    if |values| > 2 {
      SplitAvoidsSep(values[2], TagSeparator);
    }
  }

  /** The id a line carries, `None` when `getField(ID, line)` does not
      produce a long. */
  function RecordId(line: string): Option<Long> {
    match GetField(Id, line)
    case Some(IdValue(id)) => Some(id)
    case _ => None
  }

  /** The url a line carries, `None` when the line has no url field. */
  function RecordUrl(line: string): Option<string> {
    match GetField(Url, line)
    case Some(UrlValue(url)) => Some(url)
    case _ => None
  }

  /** The line written for an entity: "ID URL t1,t2,...". */
  function EncodeRecord(id: Long, url: string, tags: seq<string>): string {
    Join([ToString(id), url, Join(tags, TagSeparator)], Separator)
  }

  /** A line terminator: reading the file back would end the line there. */
  predicate LineBreak(c: char) {
    c == '\n' || c == '\r'
  }

  /** The entities the line format can carry: no space and no line break in
      the url, and a non-empty tag list of tags without spaces, commas or
      line breaks whose last tag is non-empty (`split` would drop it
      otherwise). */
  predicate Representable(url: string, tags: seq<string>) {
    && Separator !in url
    && (forall c :: c in url ==> !LineBreak(c))
    && |tags| >= 1
    && tags[|tags| - 1] != ""
    && forall i :: 0 <= i < |tags| ==>
         && Separator !in tags[i] && TagSeparator !in tags[i]
         && forall c :: c in tags[i] ==> !LineBreak(c)
  }

  /** The id of an encoded line is always read back, whatever the url and
      tags contain. */
  lemma {:induction false} RecordIdOfEncode(id: Long, url: string, tags: seq<string>)
    ensures RecordId(EncodeRecord(id, url, tags)) == Some(id)
  {
    var text := ToString(id);
    var line := EncodeRecord(id, url, tags);
    ToStringChars(id);
    JoinThree(text, url, Join(tags, TagSeparator), Separator);
    SplitFirst(text, Separator, url + [Separator] + Join(tags, TagSeparator));
    ParseOfToString(id);
  }

  /** Decoding an encoded entity gives back its id, url and tags, for every
      entity the format can carry. */
  lemma {:induction false} DecodeOfEncode(id: Long, url: string, tags: seq<string>)
    requires Representable(url, tags)
    ensures GetField(Id, EncodeRecord(id, url, tags)) == Some(IdValue(id))
    ensures GetField(Url, EncodeRecord(id, url, tags)) == Some(UrlValue(url))
    ensures GetField(Tags, EncodeRecord(id, url, tags)) == Some(TagsValue(tags))
  {
    var tagText := Join(tags, TagSeparator);
    var parts := [ToString(id), url, tagText];
    ToStringChars(id);
    JoinAvoids(tags, TagSeparator, Separator);
    JoinNonEmpty(tags, TagSeparator);
    assert Separator !in parts[0];
    SplitOfJoin(parts, Separator);
    SplitOfJoin(tags, TagSeparator);
    ParseOfToString(id);
  }

  /** An entity added with no tags is written as "ID URL " and its TAGS field
      can no longer be read: the trailing empty field is dropped by `split`. */
  lemma {:induction false} EmptyTagsUnreadable(id: Long, url: string)
    requires Separator !in url
    ensures GetField(Tags, EncodeRecord(id, url, [])) == None
  {
    var line := EncodeRecord(id, url, []);
    var text := ToString(id);
    ToStringChars(id);
    assert Join([], TagSeparator) == "";
    assert Separator !in text;
    FieldsOfJoin([text, url, ""], Separator);
    assert Join([text, url, ""], Separator) == line;
  }
}

=== FILE: results.dfy ===
/** Failure-carrying wrappers shared by the whole model: `Option` stands for a
    Java or C reference that may be null, `Result` for an operation that may
    throw or report an error instead of producing a value. */
module Results {

  datatype Option<+T> = None | Some(value: T) {

    /** The wrapped value, or `default` when there is none. */
    function GetOr(default: T): T {
      match this
      case Some(v) => v
      case None => default
    }
  }

  datatype Result<+T, +E> = Success(value: T) | Failure(error: E)
}

=== FILE: semantic_stack.dfy ===
/** The two-slot semantic stack of bo_config/semantics-processor.c and the
    rule that turns a keyword/literal pair on it into a context assignment. */
module SemanticStack {
  import opened Results
  import opened CStrings
  import opened Tokens
  import opened Contexts

  /** SIZE: the capacity of the stack. */
  const Size: nat := 2

  /** A slot of the `data` array: never written since `stack_malloc` (an
      indeterminate pointer), or holding a token pushed there. */
  datatype Slot = Unwritten | Written(token: Token)

  /** The stack struct: `top` and the `data` array. */
  datatype Stack = Stack(top: nat, data: seq<Slot>)

  /** What every stack built through this interface satisfies: `data` has
      SIZE slots, `top` never exceeds SIZE, and every slot below `top` holds
      a pushed token. */
  predicate Valid(s: Stack) {
    && |s.data| == Size
    && s.top <= Size
    && (s.top >= 1 ==> s.data[0].Written?)
    && (s.top >= 2 ==> s.data[1].Written?)
  }

  /** Undefined behaviour the model stops at: a read of an indeterminate
      slot, a read past the end of `data`, a call through the NULL setter. */
  datatype Fault = UninitialisedRead | OutOfBoundsRead | NullSetterCall

  /** `stack_malloc()`: `top` is 0 and no slot has been written. */
  function StackMalloc(): (s: Stack)
    ensures Valid(s) && s.top == 0
  {
    Stack(0, [Unwritten, Unwritten])
  }

  /** What `push` leaves behind: its return code, the stack (`None` for a
      NULL stack pointer), and whether it reported "Stack full". */
  datatype Pushed = Pushed(status: int, stack: Option<Stack>, full: bool)

  /** `push(stack, token)`: refuses a NULL token or stack, refuses a full
      stack with a "Stack full" report, and otherwise stores a copy of the
      token at `top` and increments `top`. */
  function Push(s: Option<Stack>, t: Option<Token>): (r: Pushed)
    requires s.Some? ==> Valid(s.value)
    ensures r.status == 0 || r.status == 1
    ensures r.status == 1 <==> s.Some? && t.Some? && s.value.top < Size
    ensures r.full <==> s.Some? && t.Some? && s.value.top >= Size
    ensures r.status == 0 ==> r.stack == s
    ensures r.status == 1 ==>
      && r.stack.Some? && Valid(r.stack.value)
      && r.stack.value.top == s.value.top + 1
      && r.stack.value.data[s.value.top] == Written(t.value)
      && forall i :: 0 <= i < Size && i != s.value.top ==> r.stack.value.data[i] == s.value.data[i]
  {
    if t.None? || s.None? then Pushed(0, s, false)
    else if s.value.top >= Size then Pushed(0, s, true)
    else
      var st := s.value;
      Pushed(1, Some(Stack(st.top + 1, st.data[st.top := Written(t.value)])), false)
  }

  /** What `pop` hands back: the stack after it and the token pointer it
      returns (`None` for NULL). */
  datatype Popped = Popped(stack: Stack, token: Option<Token>)

  /** `pop(stack)` as evidently intended: NULL on an empty stack, otherwise
      the token on top, `data[top - 1]`, with `top` decremented. */
  function Pop(s: Stack): (r: Popped)
    requires Valid(s)
    ensures Valid(r.stack) && r.stack.data == s.data
    ensures s.top == 0 ==> r == Popped(s, None)
    ensures s.top > 0 ==> r.stack.top == s.top - 1 && r.token == Some(s.data[s.top - 1].token)
  {
    if s.top > 0 then Popped(s.(top := s.top - 1), Some(s.data[s.top - 1].token))
    else Popped(s, None)
  }

  /** `pop(stack)` as written: on a non-empty stack it reads `data[top]`
      before decrementing, which is one past the top token and, on a full
      stack, one past the end of `data`. The slot it reads is handed back. */
  function PopAsWritten(s: Stack): (r: Result<(Stack, Option<Slot>), Fault>)
    requires Valid(s)
    ensures r.Failure? <==> s.top == Size
    ensures r.Success? && s.top > 0 ==> r.value.0.top == s.top - 1 && r.value.1 == Some(s.data[s.top])
  {
    if s.top == 0 then Success((s, None))
    else if s.top >= Size then Failure(OutOfBoundsRead)
    else Success((s.(top := s.top - 1), Some(s.data[s.top])))
  }

  /** `empty(stack)`: two pops, with the corrected `pop`. */
  function Empty(s: Stack): (r: Stack)
    requires Valid(s)
    ensures Valid(r) && r.data == s.data
    ensures r.top == if s.top >= 2 then s.top - 2 else 0
  {
    Pop(Pop(s).stack).stack
  }

  /** `empty(stack)` with `pop` as written. */
  function EmptyAsWritten(s: Stack): Result<Stack, Fault>
    requires Valid(s)
  {
    match PopAsWritten(s)
    case Failure(f) => Failure(f)
    case Success((once, _)) =>
      match PopAsWritten(once)
      case Failure(f) => Failure(f)
      case Success((twice, _)) => Success(twice)
  }

  /** The pop of a push hands back the pushed token and restores `top`. */
  lemma {:induction false} PopAfterPush(s: Stack, t: Token)
    requires Valid(s) && s.top < Size
    ensures
      var pushed := Push(Some(s), Some(t)).stack.value;
      Pop(pushed).token == Some(t) && Pop(pushed).stack.top == s.top
  {
  }

  /** With `pop` as written, the same round trip misses the pushed token: on
      a new stack it reads the slot above it, which was never written. */
  lemma {:induction false} PopAsWrittenMissesPush(t: Token)
    ensures
      var pushed := Push(Some(StackMalloc()), Some(t)).stack.value;
      && PopAsWritten(pushed).Success?
      && PopAsWritten(pushed).value.1 == Some(Unwritten)
      && Pop(pushed).token == Some(t)
  {
  }

  /** With `pop` as written, emptying a full stack (as `perform_assignment`
      does after every complete statement) reads past the end of `data`;
      with the corrected `pop` it leaves the stack empty. */
  lemma {:induction false} EmptyFullStack(s: Stack)
    requires Valid(s) && s.top == Size
    ensures EmptyAsWritten(s) == Failure(OutOfBoundsRead)
    ensures Empty(s).top == 0
  {
  }

  /** The pairs `valid_assignment` accepts: DB with a path literal and
      URL_OPEN_CMD with a string literal. */
  predicate ValidPair(keyword: TokenType, literal: TokenType) {
    || (keyword == Db && literal == PathLiteral)
    || (keyword == UrlOpenCmd && literal == StringLiteral)
  }

  /** `valid_assignment(stack)`: reads the type of slot 0 and, for DB and
      URL_OPEN_CMD, the type of slot 1, whatever `top` is. Reading a slot
      that was never written is undefined. */
  function ValidAssignment(s: Stack): (r: Result<bool, Fault>)
    requires Valid(s)
    ensures r.Failure? <==> s.data[0].Unwritten? || (IsKeyword(s.data[0].token.kind) && s.data[1].Unwritten?)
    ensures r == Success(true) <==>
      s.data[0].Written? && s.data[1].Written? && ValidPair(s.data[0].token.kind, s.data[1].token.kind)
  {
    match s.data[0]
    case Unwritten => Failure(UninitialisedRead)
    case Written(first) =>
      match first.kind
      case Db => (match s.data[1]
                  case Unwritten => Failure(UninitialisedRead)
                  case Written(second) => Success(second.kind == PathLiteral))
      case UrlOpenCmd => (match s.data[1]
                          case Unwritten => Failure(UninitialisedRead)
                          case Written(second) => Success(second.kind == StringLiteral))
      case _ => Success(false)
  }

  /** `get_setter_function(type)` (bo_config/context-function-mapper.h): the
      attribute whose setter is returned, `None` for the NULL returned for
      any other token type. */
  function SetterFor(k: TokenType): (r: Option<Attribute>)
    ensures r.Some? <==> IsKeyword(k)
    ensures r == Some(DbAttribute) <==> k == Db
  {
    match k
    case Db => Some(DbAttribute)
    case UrlOpenCmd => Some(UrlOpenCmdAttribute)
    case _ => None
  }

  /** `perform_assignment(context, stack)`: hands the content of slot 1,
      with its `strlen`, to the setter chosen by the type of slot 0 (its
      return code is ignored), then empties the stack. */
  function PerformAssignment(c: Context, s: Stack): (r: Result<(Context, Stack), Fault>)
    requires Valid(s)
    ensures r.Success? <==> s.data[0].Written? && s.data[1].Written? && IsKeyword(s.data[0].token.kind)
    ensures r.Success? ==> Valid(r.value.1) && r.value.1.top == 0 && r.value.1.data == s.data
    ensures r.Success? ==>
      var value := s.data[1].token.content;
      var a := SetterFor(s.data[0].token.kind).value;
      && (c.values.Some? && CLength(value) > 0 ==> GetAttribute(r.value.0, a) == Some(CString(value)))
      && (c.values.None? || CLength(value) == 0 ==> r.value.0 == c)
      && forall b :: b != a ==> GetAttribute(r.value.0, b) == GetAttribute(c, b)
  {
    match s.data[1]
    case Unwritten => Failure(UninitialisedRead)
    case Written(literal) =>
      var value := literal.content;
      match s.data[0]
      case Unwritten => Failure(UninitialisedRead)
      case Written(keyword) =>
        match SetterFor(keyword.kind)
        case None => Failure(NullSetterCall)
        case Some(a) =>
          StrNCopyWhole(value);
          var outcome := SetAttribute(Some(c), a, value, CLength(value));
          Success((outcome.context.value, Empty(s)))
  }
}

=== FILE: store_scenarios.dfy ===
/** The store scenarios of the repository's test suite, stated on the model. */
module StoreScenarios {
  import opened Results
  import opened JavaLong
  import opened JavaString
  import opened Headers
  import opened Records
  import opened Entities
  import opened FileDatabase

  /** The three entities the tests add first. */
  function FirstBatch(): seq<Entity> {
    [EntityOf(Some("url1"), Some(["t1", "t2", "t3"])),
     EntityOf(Some("url2"), Some(["t1", "t2", "t3", "t4"])),
     EntityOf(Some("url3"), Some(["t1", "t2"]))]
  }

  lemma {:induction false} SmallToString(n: Long)
    requires 0 <= n < 10
    ensures ToString(n) == [(('0' as int) + n) as char]
  {
  }

  lemma {:induction false} SmallHeaderLine(a: Long, b: Long)
    requires 0 <= a < 10 && 0 <= b < 10
    ensures HeaderLine(Header(a, b)) == [(('0' as int) + a) as char, ' ', (('0' as int) + b) as char]
  {
    SmallToString(a);
    SmallToString(b);
    assert [ToString(a), ToString(b)][1..] == [ToString(b)];
    assert Join([ToString(b)], Separator) == ToString(b);
  }

  lemma {:induction false} SmallRecord(id: Long, url: string, tags: seq<string>, tagText: string)
    requires 0 <= id < 10
    requires Join(tags, TagSeparator) == tagText
    ensures EncodeRecord(id, url, tags) == [(('0' as int) + id) as char] + " " + url + " " + tagText
  {
    SmallToString(id);
    JoinThree(ToString(id), url, tagText, Separator);
  }

  lemma {:induction false} OpenEmptyStore()
    ensures Open(["0 0"]) == Success(Header(0, 0))
  {
    SmallHeaderLine(0, 0);
    OpenAfterWrite(Header(0, 0), []);
    assert [HeaderLine(Header(0, 0))] + [] == ["0 0"];
  }

  lemma {:induction false} TagText(a: string, b: string, rest: seq<string>, restText: string)
    requires |rest| >= 1 && Join(rest, TagSeparator) == restText
    ensures Join([a] + rest, TagSeparator) == a + [TagSeparator] + restText
  {
    assert ([a] + rest)[1..] == rest;
  }

  lemma {:induction false} FirstBatchTags()
    ensures Join(["t1", "t2", "t3"], TagSeparator) == "t1,t2,t3"
    ensures Join(["t1", "t2", "t3", "t4"], TagSeparator) == "t1,t2,t3,t4"
    ensures Join(["t1", "t2"], TagSeparator) == "t1,t2"
  {
    assert Join(["t4"], TagSeparator) == "t4";
    assert Join(["t3"], TagSeparator) == "t3";
    assert Join(["t2"], TagSeparator) == "t2";
    TagText("t3", "", ["t4"], "t4");
    assert ["t3"] + ["t4"] == ["t3", "t4"];
    TagText("t2", "", ["t3", "t4"], "t3,t4");
    assert ["t2"] + ["t3", "t4"] == ["t2", "t3", "t4"];
    TagText("t1", "", ["t2", "t3", "t4"], "t2,t3,t4");
    assert ["t1"] + ["t2", "t3", "t4"] == ["t1", "t2", "t3", "t4"];
    TagText("t2", "", ["t3"], "t3");
    assert ["t2"] + ["t3"] == ["t2", "t3"];
    TagText("t1", "", ["t2", "t3"], "t2,t3");
    assert ["t1"] + ["t2", "t3"] == ["t1", "t2", "t3"];
    TagText("t1", "", ["t2"], "t2");
    assert ["t1"] + ["t2"] == ["t1", "t2"];
  }

  lemma {:induction false} FirstBatchWellFormed()
    ensures AllWellFormed(FirstBatch())
  {
    var es := FirstBatch();
    assert AllWellFormed(es[..0]);
    assert es[..1][..0] == es[..0];
    assert AllWellFormed(es[..1]);
    assert es[..2][..1] == es[..1];
    assert AllWellFormed(es[..2]);
    assert es[..2] == es[..|es| - 1];
  }

  lemma {:induction false} FirstBatchRecords()
    ensures AllWellFormed(FirstBatch())
    ensures NewRecords(FirstBatch(), 1) == ["1 url1 t1,t2,t3", "2 url2 t1,t2,t3,t4", "3 url3 t1,t2"]
  {
    var es := FirstBatch();
    FirstBatchWellFormed();
    FirstBatchTags();
    var r := NewRecords(es, 1);
    NewRecordAt(es, 1, 0);
    SmallRecord(1, "url1", ["t1", "t2", "t3"], "t1,t2,t3");
    assert r[0] == "1 url1 t1,t2,t3";
    NewRecordAt(es, 1, 1);
    SmallRecord(2, "url2", ["t1", "t2", "t3", "t4"], "t1,t2,t3,t4");
    assert r[1] == "2 url2 t1,t2,t3,t4";
    NewRecordAt(es, 1, 2);
    SmallRecord(3, "url3", ["t1", "t2"], "t1,t2");
    assert r[2] == "3 url3 t1,t2";
    assert r == [r[0], r[1], r[2]];
  }

  /** A successful add, with its pieces computed separately. */
  lemma {:induction false} AddFromPieces(file: seq<string>, es: seq<Entity>, h: Header, news: seq<string>, headerText: string)
    requires |es| > 0 && Open(file) == Success(h) && AllWellFormed(es)
    requires h.numOfEntries + |es| <= MaxLong && h.maxId + |es| <= MaxLong
    requires NewRecords(es, h.maxId + 1) == news
    requires HeaderLine(Header(h.numOfEntries + |es|, h.maxId + |es|)) == headerText
    ensures Add(file, es) == Success([headerText] + (file[1..] + news))
  {
    AddWrites(file, es);
  }

  /** Adding the first batch to a store holding only "0 0". */
  lemma {:induction false} AddToEmptyStore()
    ensures Add(["0 0"], FirstBatch())
      == Success(["3 3", "1 url1 t1,t2,t3", "2 url2 t1,t2,t3,t4", "3 url3 t1,t2"])
  {
    OpenEmptyStore();
    FirstBatchRecords();
    SmallHeaderLine(3, 3);
    AddFromPieces(["0 0"], FirstBatch(), Header(0, 0),
                  ["1 url1 t1,t2,t3", "2 url2 t1,t2,t3,t4", "3 url3 t1,t2"], "3 3");
    assert ["0 0"][1..] == [];
    assert ["3 3"] + ([] + ["1 url1 t1,t2,t3", "2 url2 t1,t2,t3,t4", "3 url3 t1,t2"])
      == ["3 3", "1 url1 t1,t2,t3", "2 url2 t1,t2,t3,t4", "3 url3 t1,t2"];
  }

  /** The store after the first batch. */
  function AfterFirstBatch(): seq<string> {
    ["3 3", "1 url1 t1,t2,t3", "2 url2 t1,t2,t3,t4", "3 url3 t1,t2"]
  }

  lemma {:induction false} OpenAfterFirstBatch()
    ensures Open(AfterFirstBatch()) == Success(Header(3, 3))
  {
    SmallHeaderLine(3, 3);
    var body := AfterFirstBatch()[1..];
    OpenAfterWrite(Header(3, 3), body);
    assert [HeaderLine(Header(3, 3))] + body == AfterFirstBatch();
  }

  lemma {:induction false} SecondBatchRecords()
    ensures AllWellFormed([EntityOf(Some("url4"), Some(["t1"]))])
    ensures NewRecords([EntityOf(Some("url4"), Some(["t1"]))], 4) == ["4 url4 t1"]
  {
    var es := [EntityOf(Some("url4"), Some(["t1"]))];
    assert AllWellFormed(es[..0]);
    assert Join(["t1"], TagSeparator) == "t1";
    NewRecordAt(es, 4, 0);
    SmallRecord(4, "url4", ["t1"], "t1");
    assert NewRecords(es, 4)[0] == "4 url4 t1";
  }

  /** A second add of one entity continues the numbering at 4 and leaves
      the existing lines as they were. */
  lemma {:induction false} AddToUsedStore()
    ensures Add(AfterFirstBatch(), [EntityOf(Some("url4"), Some(["t1"]))])
      == Success(["4 4", "1 url1 t1,t2,t3", "2 url2 t1,t2,t3,t4", "3 url3 t1,t2", "4 url4 t1"])
  {
    OpenAfterFirstBatch();
    SecondBatchRecords();
    SmallHeaderLine(4, 4);
    AddFromPieces(AfterFirstBatch(), [EntityOf(Some("url4"), Some(["t1"]))], Header(3, 3), ["4 url4 t1"], "4 4");
    assert ["4 4"] + (AfterFirstBatch()[1..] + ["4 url4 t1"])
      == ["4 4", "1 url1 t1,t2,t3", "2 url2 t1,t2,t3,t4", "3 url3 t1,t2", "4 url4 t1"];
  }

  /** A successful delete, with its pieces computed separately. */
  lemma {:induction false} DeleteFromPieces(file: seq<string>, ids: seq<Long>, h: Header, kept: seq<string>, headerText: string)
    requires Open(file) == Success(h)
    requires Lines(file[1..], IdAmong(ids), false) == kept
    requires MinLong <= h.numOfEntries - (|file| - 1 - |kept|)
    requires HeaderLine(Header(h.numOfEntries - (|file| - 1 - |kept|), h.maxId)) == headerText
    ensures DeleteIds(file, ids) == Success([headerText] + kept)
  {
  }

  /** Deleting every id of freshly numbered records leaves only a header
      whose entry count is lowered by their number. */
  lemma {:induction false} DeleteAllNewRecords(h: Header, es: seq<Entity>, ids: seq<Long>)
    requires AllWellFormed(es) && |es| <= MaxLong && MinLong <= h.numOfEntries - |es|
    requires forall id :: 1 <= id <= |es| ==> id in ids
    ensures DeleteIds([HeaderLine(h)] + NewRecords(es, 1), ids) == Success([HeaderLine(Header(h.numOfEntries - |es|, h.maxId))])
  {
    var file := [HeaderLine(h)] + NewRecords(es, 1);
    var body := NewRecords(es, 1);
    OpenAfterWrite(h, body);
    assert file[1..] == body;
    forall i | 0 <= i < |body|
      ensures Holds(IdAmong(ids), body[i])
    {
      NewRecordIdAt(es, 1, i);
    }
    LinesNone(body, IdAmong(ids), false);
    var h' := Header(h.numOfEntries - |es|, h.maxId);
    DeleteFromPieces(file, ids, h, [], HeaderLine(h'));
    assert [HeaderLine(h')] + [] == [HeaderLine(h')];
  }

  /** Deleting ids 1, 2 and 3 after the first batch removes every entry; the
      header keeps the highest id, so the file is "0 3" rather than empty. */
  lemma {:induction false} DeleteAllEntries()
    ensures DeleteIds(AfterFirstBatch(), [1, 2, 3]) == Success(["0 3"])
  {
    SmallHeaderLine(3, 3);
    SmallHeaderLine(0, 3);
    FirstBatchRecords();
    assert AfterFirstBatch() == [HeaderLine(Header(3, 3))] + NewRecords(FirstBatch(), 1);
    DeleteAllNewRecords(Header(3, 3), FirstBatch(), [1, 2, 3]);
  }

  /** A store whose only entry line has no numeric id: the lookup as written
      fails outright, while `Get` finds nothing and succeeds. */
  lemma {:induction false} UnreadableIdBreaksSourceLookup()
    ensures SelectAsWritten(["bookmark"], [1]) == None
    ensures Get(Header(1, 1), ["1 1", "bookmark"], [1]) == Some([])
  {
    assert RecordId("bookmark") == None by {
      assert IndexOf("bookmark", Separator) == 8;
      SplitShape("bookmark", Separator);
    }
  }
}

=== FILE: tokens.dfy ===
/** The tokens the parser of bo_config/parser.c reads (bo_config/tokens.h).
    The scanner is not part of this model: its output is taken as a sequence
    of tokens, and once the sequence is exhausted the scanner is taken to
    answer END_OF_FILE. */
module Tokens {

  datatype TokenType =
    | EndOfFile
    | Error
    | Db
    | UrlOpenCmd
    | IntLiteral
    | StringLiteral
    | PathLiteral
    | Equals
    | Space
    | EndOfLine
    | InvalidToken
    | InitialToken

  /** A token: its type and the text it was scanned from. */
  datatype Token = Token(kind: TokenType, content: string)

  /** The token `get_next_token` has delivered after `pos` earlier calls. */
  function Current(ts: seq<Token>, pos: nat): (t: Token)
    ensures pos >= |ts| ==> t.kind == EndOfFile
  {
    if pos < |ts| then ts[pos] else Token(EndOfFile, "")
  }

  predicate IsKeyword(k: TokenType) {
    k == Db || k == UrlOpenCmd
  }

  predicate IsAssignOp(k: TokenType) {
    k == Equals || k == Space
  }

  predicate IsLiteral(k: TokenType) {
    k == IntLiteral || k == StringLiteral || k == PathLiteral
  }

  /** The four tokens from `i` on form a STATEMENT:
      KEYWORD ASSIGN_OP LITERAL END_OF_LINE. */
  predicate StatementAt(ts: seq<Token>, i: nat) {
    && i + 4 <= |ts|
    && IsKeyword(ts[i].kind)
    && IsAssignOp(ts[i + 1].kind)
    && IsLiteral(ts[i + 2].kind)
    && ts[i + 3].kind == EndOfLine
  }

  /** The first `4 * n` tokens are `n` statements. */
  predicate Statements(ts: seq<Token>, n: nat)
    decreases n
  {
    && 4 * n <= |ts|
    && (n == 0 || (Statements(ts, n - 1) && StatementAt(ts, 4 * (n - 1))))
  }

  /** `ts` is a PROGRAM of `n` statements: STATEMENT_LIST END_OF_FILE, where
      STATEMENT_LIST is at least one statement. Tokens after the END_OF_FILE
      are never read. */
  predicate Grammatical(ts: seq<Token>, n: nat) {
    n >= 1 && Statements(ts, n) && Current(ts, 4 * n).kind == EndOfFile
  }

  /** Every statement of a statement run is in place. */
  lemma {:induction false} StatementsAt(ts: seq<Token>, n: nat, j: nat)
    requires Statements(ts, n) && j < n
    ensures StatementAt(ts, 4 * j)
    decreases n
  {
    if j < n - 1 {
      StatementsAt(ts, n - 1, j);
    }
  }

  /** A run of statements starts with shorter runs. */
  lemma {:induction false} StatementsPrefix(ts: seq<Token>, n: nat, m: nat)
    requires Statements(ts, n) && m <= n
    ensures Statements(ts, m)
    decreases n
  {
    if m < n {
      StatementsPrefix(ts, n - 1, m);
    }
  }
}

/** The tokens of the generic draft bo_config/config-parser.c
    (bo_config/config-scanner.h): a single KEYWORD type instead of DB and
    URL_OPEN_CMD. Past the end of the sequence the scanner is taken to answer
    END_OF_FILE. */
module ConfigTokens {

  datatype TokenType =
    | EndOfFile
    | Error
    | Keyword
    | IntLiteral
    | StringLiteral
    | PathLiteral
    | Equals
    | Space
    | EndOfLine
    | InvalidToken
    | InitialToken

  datatype Token = Token(kind: TokenType, content: string)

  function Current(ts: seq<Token>, pos: nat): (t: Token)
    ensures pos >= |ts| ==> t.kind == EndOfFile
  {
    if pos < |ts| then ts[pos] else Token(EndOfFile, "")
  }

  predicate IsAssignOp(k: TokenType) {
    k == Equals || k == Space
  }

  predicate IsLiteral(k: TokenType) {
    k == IntLiteral || k == StringLiteral || k == PathLiteral
  }

  /** The four tokens from `i` on form a STATEMENT. */
  predicate StatementAt(ts: seq<Token>, i: nat) {
    && i + 4 <= |ts|
    && ts[i].kind == Keyword
    && IsAssignOp(ts[i + 1].kind)
    && IsLiteral(ts[i + 2].kind)
    && ts[i + 3].kind == EndOfLine
  }

  /** The first `4 * n` tokens are `n` statements. */
  predicate Statements(ts: seq<Token>, n: nat)
    decreases n
  {
    && 4 * n <= |ts|
    && (n == 0 || (Statements(ts, n - 1) && StatementAt(ts, 4 * (n - 1))))
  }

  /** `ts` is a PROGRAM of `n >= 1` statements followed by END_OF_FILE. */
  predicate Grammatical(ts: seq<Token>, n: nat) {
    n >= 1 && Statements(ts, n) && Current(ts, 4 * n).kind == EndOfFile
  }

  lemma {:induction false} StatementsAt(ts: seq<Token>, n: nat, j: nat)
    requires Statements(ts, n) && j < n
    ensures StatementAt(ts, 4 * j)
    decreases n
  {
    if j < n - 1 {
      StatementsAt(ts, n - 1, j);
    }
  }
}
